=== FILE: README.md ===
# cw-ave in Dafny

This project models the core of cw-ave, a CosmWasm event-ticketing
system, and proves properties of the model. It covers three parts.

- **The event contract.** Instantiation validates the tiers ("guest
  details") and the stage timeline. A ticket purchase admits a prefix of the
  requested tickets, settles them against the funds sent, and updates the
  tier's reservation counter. Check-in goes through an usher and a signed
  guest message, and marks stages write-once. The "homie" delegation lists
  hold tickets bought for other wallets, and the curator collects the
  payments.
- **The factory contract.** It instantiates event contracts behind an owner
  gate, records each new contract in its reply handler, and serves
  paginated listings.
- **The helper tables.** They give the license fee and the license address
  of each chain id.

Each entry point is a pure function from state to `Result`. The runtime
discards every write of an entry point that returns an error, so an entry
point either commits all of its writes or none. The storage tables are
Dafny maps. A range over a table visits the keys in `Ordering.Ascending`
order: numeric order for `u64` keys and lexicographic order for string keys.

Several inputs of the contracts are parameters of the model.

- The usher and guest roster contracts become `map<Addr, nat>` arguments
  (address to weight).
- The secp256k1 signature check becomes a `bool`.
- The decoded `signed_data` becomes the list of claimed stage ids.
- The bank balance query becomes a `map<Denom, nat>`.
- Address validation in the factory becomes a `bool`.

Modules, by file:

- `wrappers.dfy`: `Option`, `Result`.
- `ordering.dfy`: key orders.
- `coins.dfy`: coin lists.
- `license.dfy`: the helper tables.
- `event_types.dfy`: event entities and errors.
- `setup.dfy`: instantiate validation.
- `settlement.dfy`: `count_tickets_and_remainder`.
- `reservation.dfy`: `perform_ticket_purchase`.
- `delegation.dfy`: the delegation lists, the homie claim and the ticket-wallet update.
- `checkin.dfy`: check-in and attendance.
- `payments.dfy`: the curator's payment claim.
- `factory.dfy`: the factory.

## Behaviour as the code has it

In these places the model follows what the contract code does, which is
not always what its design notes describe.

- The reservation counter `RESERVED_TICKETS` is keyed by tier weight, not by
  wallet (contract.rs:289). So the per-wallet limit caps all
  reservations of a tier together.
- The first reservation of a tier stores the number of tickets settled. A
  later one adds the number requested, admitted or not
  (contract.rs:289-304).
- The tier total counter `TOTAL_RESERVED_BY_GUEST_TYPE` is set to 0 at
  instantiation and never written by a purchase (contract.rs:67, 262).
  Admission therefore always sees a count of 0.
- Every tier group of one purchase settles against the full funds of the
  call, not against what earlier groups left (contract.rs:276-281).
- An absent attendance record is an error (`GuestTypeIncorrect`), and nothing
  in the contract creates records (contract.rs:396-411). So on a freshly
  instantiated event every check-in fails or changes nothing
  (`CheckIn.NoRecordNoCheckIn`). It changes nothing when it has no record to
  mark, as with AnyOf and no claimed ids, or AllOf with an empty id list.
- `SingleSegment{id}` accepts any claimed id list that contains `id`
  (contract.rs:369).
- The ticket-wallet update queries the guest roster for the sender's weight
  on every delegate update, not for the delegate's (contract.rs:646-653). A
  new ticket address is ignored when the remapped list is empty
  (contract.rs:631).

## Model

| member | source | states |
|---|---|---|
| License.LicenseFee | packages/av-event-helpers/src/lib.rs:5-27 | Ok exactly on the 16 listed chains: 1_000_000 on juno-1, 420_000_000 on every other listed chain. Any other chain gives an error. |
| License.LicenseFeeDenom | packages/av-event-helpers/src/lib.rs:6-22 | On a listed chain the fee is one coin in that chain's own denomination, with the juno-1 or the standard amount. |
| License.LicenseAddr | packages/av-event-helpers/src/lib.rs:29-41 | Ok only on juno-1 and bitsong-2b, each with its fixed address. Every other chain gives an error. |
| License.LicensedChainsHaveFee | packages/av-event-helpers/src/lib.rs:5-41 | A chain with a license address also has a license fee. |
| Setup.NoRepeatedDenom | contracts/cw-ave/src/contract.rs:57-64 | The duplicate-denom scan passes iff no denom occurs twice in the cost list (and none was seen before). |
| Setup.TierFault | contracts/cw-ave/src/contract.rs:48-64 | The per-tier checks run in source order. DuplicateGuestWeight iff the weight is already stored. BadGuestDetailParams iff the label is over 128 or max > total. DuplicateFeeDenom iff only the denoms repeat. |
| Setup.RegisterTiers | contracts/cw-ave/src/contract.rs:45-70 | The tiers are accepted iff the weights are distinct and new and every tier is well-formed. Each accepted tier is then stored under its weight, and earlier entries are untouched. |
| Setup.FirstFaultyTier | contracts/cw-ave/src/contract.rs:45-70 | A rejected tier list fails at its first faulty tier. The tiers before it are accepted, and the error is that tier's check against the weights accepted so far. |
| Setup.StageFault | contracts/cw-ave/src/contract.rs:73-88 | The per-stage checks run in order, each error an iff with its priority. InvalidEventDates iff start > end. BadEventDescriptionLength iff start ≤ end and the description is over 128. OverlappingEventDates iff the stage is well-formed and starts before its predecessor ends. |
| Setup.FirstStageFault | contracts/cw-ave/src/contract.rs:73-92 | No fault iff every remaining stage is well-formed and non-overlapping. Each error names a stage that exhibits it. |
| Setup.FirstFaultyStage | contracts/cw-ave/src/contract.rs:73-92 | A rejected timeline fails at its first faulty stage: every earlier stage passes its checks, and the error is that stage's. |
| Setup.RegisterStages | contracts/cw-ave/src/contract.rs:73-92 | The timeline is accepted iff every stage has start ≤ end and a description ≤ 128, and consecutive stages do not overlap. Stages are stored under their 0-based index. |
| Setup.TimelineOrdered | contracts/cw-ave/src/contract.rs:83-88 | An accepted timeline is ordered as a whole: every stage ends no later than any later stage starts. |
| Setup.Instantiate | contracts/cw-ave/src/contract.rs:35-92 | Errors come in order: license, then title/description, then tiers, then stages. Ok iff all checks pass. The new state holds the tiers by weight, every total counter at 0, and the stages by index. Reservations, attendance and delegation lists start empty. |
| Setup.DuplicateWeightRejected | contracts/cw-ave/src/contract.rs:48-49 | A second tier reusing an accepted weight gives DuplicateGuestWeight. |
| Setup.OverlappingSecondStageRejected | contracts/cw-ave-factory/src/tests.rs:846-878 | The timeline of the repository's overlap test case, whose second stage (1500-2500) starts inside the first (1000-2000), is rejected with OverlappingEventDates. |
| Coins.FirstIndex | contracts/cw-ave/src/contract.rs:437-439 | `find` by denom returns the first coin of that denom, or none iff no coin has it. |
| Coins.TotalUpdate | contracts/cw-ave/src/contract.rs:448 | Changing one coin's amount changes only that denom's total, by the difference. |
| Settlement.Fee | contracts/cw-ave/src/contract.rs:442-446 | The fee is floor(cost·3/100), and it is at most the cost. |
| Settlement.PriceOf | contracts/cw-ave/src/contract.rs:437 | A denom has a price iff the cost list mentions it, and that price is one of the listed coins. |
| Settlement.SettleTicket | contracts/cw-ave/src/contract.rs:433-452 | An unpriced, untendered or underfunded ticket leaves everything unchanged. A payable ticket adds one to the count and one fee coin of 3% of the price in its denom, and deducts exactly the price from that denom only. |
| Settlement.DropZero | contracts/cw-ave/src/contract.rs:455-456 | Keeps exactly the non-zero coins, so every denom's total is unchanged. |
| Settlement.SettleAllConserves | contracts/cw-ave/src/contract.rs:433-453 | Settling keeps the conservation invariant: funds sent = remaining + charged, per denom. Each charge is the denom's price, and each fee is 3% of its charge. The count grows by at most one per entry. |
| Settlement.CountTicketsAndRemainder | contracts/cw-ave/src/contract.rs:422-465 | The count, fees and charges are those of settling the entries in order from the funds sent (each entry counted iff payable at its turn, per SettleTicket), and the refund is what remains without zero coins. Count ≤ entries. One fee and one charge per counted ticket. Per denom, funds sent = refund + charged, so nothing is deducted beyond what was sent. The refund has no zero coins. |
| Settlement.FullyFundedAllCounted | contracts/cw-ave/src/contract.rs:433-452 | When every entry's denom is priced and sent, the funds hold one coin per denom, and each denom's coin covers the prices of all the entries paid in it, every entry is counted. |
| Settlement.SettleAllConcat | contracts/cw-ave/src/contract.rs:433 | Entries are settled in order: settling a concatenation continues from the first part's tally. |
| Settlement.ThreeTicketsExactFunds | contracts/cw-ave/src/contract.rs:433-465 | Three tickets at 1000 with exactly 3000 sent: all three are counted, the refund is empty, and there are three fees of 30. |
| Settlement.InsufficientFundsNotCounted | scripts/src/tests/cw_ave.rs:302-327 | A ticket whose funds fall short is not counted, no fee is charged, and the whole amount sent remains as refund. |
| Reservation.SatSub | contracts/cw-ave/src/contract.rs:265 | `saturating_sub` is a - b when a ≥ b, and 0 otherwise. |
| Reservation.AdmitCount | contracts/cw-ave/src/contract.rs:263-269 | The admitted count is the smaller of the number requested and the room left under the total limit. |
| Reservation.SettledCount | contracts/cw-ave/src/contract.rs:263-281 | Settlement runs over the admitted prefix only, so the number of tickets settled never exceeds the number admitted under the total limit. |
| Reservation.OverflowNotSettled | contracts/cw-ave/src/contract.rs:265-270 | Entries past the room left under the total limit never take part: two groups that agree on their first `room` entries settle the same number of tickets. |
| Reservation.UpdateReserved | contracts/cw-ave/src/contract.rs:289-304 | First reservation: Ok iff settled ≤ max, storing settled. Later reservations: Ok iff old + requested ≤ max, storing the sum. Otherwise CannotReserveTicketCount. The stored value is always ≤ max. |
| Reservation.PurchaseGroup | contracts/cw-ave/src/contract.rs:259-315 | An unknown tier, or one without a total counter, gives NotFound. Otherwise Ok iff the counter update and the delegation recording both succeed. A failed counter update gives CannotReserveTicketCount, because it runs before the delegation recording, which otherwise gives HomieTicketAlreadyRegistered. Only the reservation counter and the buyer's delegation list change. |
| Reservation.Purchase | contracts/cw-ave/src/contract.rs:251-318 | No groups: Ok and no change. The first group's error is the call's error. A successful purchase names only known tiers and keeps every existing reservation counter. It changes only reservation counters and delegation lists, so the tier total counters never move. |
| Reservation.PurchaseInTurn | contracts/cw-ave/src/contract.rs:259-316 | The groups run in turn: the first i+1 groups purchase as the first i followed by group i, and an earlier error stops the call before group i runs. |
| Reservation.PurchaseConcat | contracts/cw-ave/src/contract.rs:259-316 | A purchase of several groups runs the groups in order and stops at the first error. |
| Reservation.UnknownTierFails | contracts/cw-ave/src/contract.rs:261 | A group naming an unknown tier fails the whole purchase, wherever it sits. |
| Reservation.InstantiateIsConsistent | contracts/cw-ave/src/contract.rs:45-70 | A new event satisfies the storage invariant: tiers keyed by weight and well-formed, and a total counter for each tier. |
| Reservation.PurchaseKeepsConsistent | contracts/cw-ave/src/contract.rs:251-318 | Purchases keep the invariant. Every reservation counter stays within its tier's per-wallet limit, and so within its total limit. |
| Reservation.ThreeTicketsReserved | contracts/cw-ave/src/contract.rs:251-318 | A fully paid purchase of three delegated tickets reserves 3 and lists the three wallets under the buyer. |
| Reservation.OnePlaceLeft | contracts/cw-ave/src/contract.rs:262-299 | With 9 of 10 places counted, only the first of three tickets is admitted. The first reservation stores 1. |
| Delegation.Delegates | contracts/cw-ave/src/contract.rs:478-482 | An address is delegated iff some entry has it as ticket address and it differs from the buyer. There are at most as many delegates as entries. |
| Delegation.DelegatesConcat | contracts/cw-ave/src/contract.rs:482-495 | Delegates keep entry order and multiplicity: those of a concatenation are those of the first part followed by those of the second. |
| Delegation.DelegatesOne | contracts/cw-ave/src/contract.rs:481-482 | One entry delegates its ticket address iff it is not the buyer's own. |
| Delegation.RecordDelegates | contracts/cw-ave/src/contract.rs:482-495 | Ok iff the delegated addresses are distinct and none is already on the buyer's list. The list then grows by exactly those, in order. Otherwise HomieTicketAlreadyRegistered. |
| Delegation.RemoveFirst | contracts/cw-ave/src/contract.rs:579-581 | An absent caller leaves the list unchanged. Otherwise the first occurrence is removed and the rest keep their order: the result is the list before that occurrence followed by the list after it. |
| Delegation.ClaimTicketReservedByHomie | contracts/cw-ave/src/contract.rs:568-590 | Ok iff the reserver has a list, and then only that list changes, losing the caller's first occurrence. Otherwise an error. |
| Delegation.ClaimUndoesDelegation | contracts/cw-ave/src/contract.rs:482-495 | A delegate claiming its ticket restores the buyer's list from before the purchase. |
| Delegation.Replacement | contracts/cw-ave/src/contract.rs:619-623 | A delegate becomes the `new` of the first update whose `old` matches it, or stays itself when none matches. |
| Delegation.Remap | contracts/cw-ave/src/contract.rs:616-625 | The remap keeps the list length and replaces each element by its replacement. |
| Delegation.RemapUnmatched | contracts/cw-ave/src/contract.rs:616-625 | Updates that match no delegate leave the list unchanged. |
| Delegation.RemapRoundTrip | contracts/cw-ave/src/contract.rs:616-625 | Moving a delegate to a fresh address and back restores the list. |
| Delegation.UpdateTicketWallet | contracts/cw-ave/src/contract.rs:593-673 | More than 10 updates gives TooManyHomieTickets. A sender off the guest roster gives NoReservedTicketsForGuest. Only the delegation lists change. The list is remapped, and moved to the new ticket address when one is given. The roster update adds each new address with the sender's weight and removes each old one. |
| CheckIn.MarkAttendance | contracts/cw-ave/src/contract.rs:396-411 | A stored false becomes true. A stored true gives GuestAlreadyCheckedIn. An absent record gives GuestTypeIncorrect. |
| CheckIn.MarkEach | contracts/cw-ave/src/contract.rs:378-381 | Marking a list succeeds iff its ids are distinct and each has a false record. Then exactly those records become true. |
| CheckIn.MarkClaimed | contracts/cw-ave/src/contract.rs:374-381 | Each claimed id is checked just before it is marked. The first id outside the allowed ids fails with IncorrectEventSegmentId, provided every mark before it succeeded. When a mark among the allowed ids before it fails, that mark's error is the result. Success means every claimed id is allowed. When every claimed id is allowed, the result is exactly MarkEach of the claimed ids. |
| CheckIn.ApplyPolicy | contracts/cw-ave/src/contract.rs:367-382 | Every policy only turns records of the ticket address from false to true. It never creates or removes records. |
| CheckIn.CheckIn | contracts/cw-ave/src/contract.rs:321-394 | The checks run in order: NotAnEventUsher, then CheckinVerificationFailed, then GuestTypeIncorrect (not on the guest roster), then NotFound. Once all four pass, the check-in succeeds iff the tier policy's marks succeed, stores their attendance, and otherwise reports their error. Success changes attendance only, write-once. |
| CheckIn.SingleSegmentCheckIn | contracts/cw-ave/src/contract.rs:368-373 | The claimed ids must contain `id`, else IncorrectEventSegmentId, and extra claimed ids change nothing. With `id` claimed, the outcome is marking `id`: success iff its record is false, and then exactly `id` is marked. Otherwise the mark's error is the result. |
| CheckIn.AnyOfCheckIn | contracts/cw-ave/src/contract.rs:374-381 | Any claimed id outside `ids` fails the check-in. It fails with IncorrectEventSegmentId when that id comes first, or when every earlier id is allowed and its mark succeeds. A mark that fails before the first disallowed id reports its own error. When every claimed id is allowed, the outcome is marking the claimed ids in order. |
| CheckIn.AllOfCheckIn | contracts/cw-ave/src/contract.rs:382-387 | The result does not depend on the claimed ids. The outcome is marking every id of the tier: success iff they are distinct with false records, and then every one of them is marked. Otherwise the marking's error is the result. |
| CheckIn.SecondCheckInFails | contracts/cw-ave/src/contract.rs:396-411 | Repeating a successful SingleSegment check-in gives GuestAlreadyCheckedIn. |
| CheckIn.NoRecordNoCheckIn | contracts/cw-ave/src/contract.rs:405-408 | With no attendance records, every check-in fails or changes nothing. |
| Payments.Flatten | contracts/cw-ave/src/contract.rs:543-547 | A denom is in the flattened list iff some tier's cost mentions it. |
| Payments.Dedup | contracts/cw-ave/src/contract.rs:548-553 | The fold keeps the same denoms, each once. |
| Payments.DedupOrder | contracts/cw-ave/src/contract.rs:548-553 | The fold keeps each denom at its first occurrence, in first-occurrence order. |
| Payments.TicketDenoms | contracts/cw-ave/src/contract.rs:542-553 | The claimed denoms are distinct and are exactly the denoms some tier's cost mentions. |
| Payments.ClaimTicketPayments | contracts/cw-ave/src/contract.rs:533-564 | Ok iff the sender is the curator, otherwise NotAnEventUsher. The payout has distinct denoms, exactly the cost denoms, each with the contract's balance (0 if none). |
| Payments.PayoutInTierOrder | contracts/cw-ave/src/contract.rs:542-558 | Payout denoms follow their first appearance in tiers by ascending weight. |
| Factory.Instantiate | contracts/cw-ave-factory/src/contract.rs:24-36 | Stores the owner and code id. It starts with no records and no pending instantiator. |
| Factory.CreateEventContract | contracts/cw-ave-factory/src/contract.rs:57-106 | Unauthorized iff an owner is set and differs from the sender. On success the sender becomes the pending instantiator, and the current code id is instantiated with reply id 0. |
| Factory.UpdateCodeId | contracts/cw-ave-factory/src/contract.rs:118-128 | Ok iff the sender is the owner: NoOwner when unset, NotOwner otherwise. On success only the code id changes, to the new value. |
| Factory.UpdateThenCreate | contracts/cw-ave-factory/src/contract.rs:90-101 | After the owner updates the code id, the owner's next creation instantiates the new code id. |
| Factory.Reply | contracts/cw-ave-factory/src/contract.rs:253-281 | Given the instantiated contract's address: reply id 0 with a pending instantiator saves {contract, instantiator} under that address and clears the pending instantiator. A missing pending instantiator gives NotFound, and any other id gives UnknownReplyId. |
| Factory.ReplyAsWritten | contracts/cw-ave-factory/src/contract.rs:253-281 | The handler as written: after the id check, the address is decoded from the reply payload, and a failed decoding is InvalidAddress. A decoded address makes the result exactly Reply with that address, including its NotFound when no instantiator is pending. |
| Factory.AsWrittenCreationsShareOneKey | contracts/cw-ave-factory/src/contract.rs:253-281 | The submessage of every creation sets no payload (contract.rs:101), so every reply carries the empty payload. So two creations either fail at the first reply or store both records under one key, where the second replaces the first. |
| Factory.CreationsKeepBoth | contracts/cw-ave-factory/src/tests.rs:562-604 | With each instantiated contract's address, two creations keep two records, each with its own creator. |
| Factory.CreateThenReplyRecordsCreator | contracts/cw-ave-factory/src/contract.rs:64-66 | A creation and its reply record the creator as the instantiator. |
| Factory.ReplyKeepsKeyedByContract | contracts/cw-ave-factory/src/contract.rs:266-273 | Every record stays stored under its own contract address. |
| Factory.PageSize | contracts/cw-ave-factory/src/contract.rs:134 | The page size is min(limit or 10, 50). |
| Factory.Window | contracts/cw-ave-factory/src/contract.rs:135-138 | Exclusive bounds: the window holds exactly the keys strictly between them. |
| Factory.Page | contracts/cw-ave-factory/src/contract.rs:137-141 | The page has min(size, window) keys from the window, strictly ordered. Every window key left out comes after all listed keys. |
| Factory.ListContracts | contracts/cw-ave-factory/src/contract.rs:133-144 | At most the page size, and as many as the window allows. Records come after `start_after` in strictly ascending address order, and no skipped address precedes a listed one. |
| Factory.ListContractsReverse | contracts/cw-ave-factory/src/contract.rs:145-159 | The same, strictly before `start_before`, in strictly descending order. |
| Factory.ListContractsByInstantiator | contracts/cw-ave-factory/src/contract.rs:160-181 | Address validation fails first. The page holds only that instantiator's records, after `start_after`, ascending, complete up to the page size. |
| Factory.ListContractsByInstantiatorReverse | contracts/cw-ave-factory/src/contract.rs:182-203 | The same, strictly before `start_before`, descending. |
| Factory.PageOfOneAfterLeast | contracts/cw-ave-factory/src/contract.rs:133-144 | For any three keyed records a < b < c, a page of one after a is b's record: the bound is exclusive and the next key comes first. |
| Factory.PageAfterFirst | contracts/cw-ave-factory/src/contract.rs:133-144 | Over the addresses a, b, c, a page of one after "a" is b's record. |
| Ordering.Ascending | contracts/cw-ave/src/contract.rs:543 | The keys of a set, each once, in strictly ascending order: the visiting order of an ascending range. |
| Ordering.Descending | contracts/cw-ave-factory/src/contract.rs:153 | The keys of a set, each once, in strictly descending order. |
| Ordering.LexLessIsStrictTotal | contracts/cw-ave-factory/src/contract.rs:137-138 | The string key order is a strict total order. |

## Left out

- The purchase path's messages are not modelled: its refund, fee and roster messages are built and then dropped, because `perform_ticket_purchase` returns an empty response (contract.rs:317). Response attributes are not modelled anywhere. Message contents are modelled only as data: `Delegation.UpdateTicketWallet` returns the roster add and remove lists, and `Payments.ClaimTicketPayments` returns the bank payout.
- Instantiation of the two roster contracts through Instantiate2 is not modelled: the code-info query, salts, SHA-256 and address derivation (contract.rs:94-160). These are hashing and foreign calls. `EventState` has no roster addresses, because the rosters are oracle parameters.
- The secp256k1 verification of the check-in message and its signing preamble are not modelled: `CheckIn.CheckIn` takes the verdict as a `bool`.
- Decoding of the JSON `signed_data` is not modelled: `CheckIn.CheckIn` takes the claimed stage ids directly. A decoding failure after a valid signature is not represented.
- Address validation is not modelled: `addr_validate` of the curator (contract.rs:38) and of the ticket address (contract.rs:347) are left out, as is the factory owner's validation in `cw_ownable::initialize_owner` (cw-ave-factory contract.rs:30), so `Factory.Instantiate` accepts any owner, and the factory listings take the validation outcome as a `bool`.
- Factory.ReplyAsWritten: `addr_humanize` is an oracle from payload bytes to an optional address. Whether it accepts the empty payload depends on the chain or test harness, so both outcomes are covered. A failure is the generic `StdError`, named `InvalidAddress` here.
- Ownership transfer (`cw_ownable` `UpdateOwnership`), `cw2` versioning, the `migrate` entry points and the no-op `refund_unconfirmed_ticket_purchase` are left out. They are library workflows or do nothing.
- The event contract's query entry point is left out. It reads the same tables without changing them.
- Storage `load` failures of items that instantiation always writes (CONFIG, LICENSE_ADDR, the factory code id) cannot happen in the model and are not represented.
- Setup.Instantiate: lengths are counted in characters. Rust's `String::len` counts UTF-8 bytes, so the two agree only for ASCII text. Setup.TierFault and Setup.StageFault share this.
- Settlement.Fee: integer widths are unbounded. `Uint128` and `u64` overflow is not modelled. `multiply_ratio` uses a wide intermediate, and the counters stay far below the bounds.
- Payments.ClaimTicketPayments: balances are an oracle map. A failing balance query is not modelled.
- Delegation.ClaimTicketReservedByHomie: the missing-list error is a generic `StdError` in the code. The model names it `NoHomieReservation`, and names the duplicate-delegate error `HomieTicketAlreadyRegistered` in the same way.
- License.LicenseFee: an unlisted chain gets a generic `StdError` in the code (lib.rs:23-25). The model names it `NoLicenseFee`. License.LicenseAddr's error (lib.rs:37-39) is named `NoLicenseAddr` in the same way, and Setup.Instantiate reports it as `NoLicenseAddress`.
- Factory.CreateEventContract: it returns the code id and reply id of the instantiation it requests. The instantiate message, label, admin and funds are not modelled.

## Findings

| source | as written | input that shows it | evidently intended | confidence | as-written member | corrected member |
|---|---|---|---|---|---|---|
| contracts/cw-ave-factory/src/contract.rs:256 | The reply reads the new contract's address from `msg.payload`. But the submessage is built with `SubMsg::reply_on_success` and no payload, so every reply decodes the same empty bytes. | Two creations, by alice and then bob, with no owner set. Either the first reply fails to decode the empty address, or both records land under the same key and bob's replaces alice's. | The reply records each instantiated contract under its own address, taken from the instantiate result. The repository's tests expect this: separate records for alice and bob (tests.rs:562-604), and the instantiated address as the record's contract (tests.rs:785-797). | not executed; high | Factory.AsWrittenCreationsShareOneKey (on Factory.ReplyAsWritten) | Factory.CreationsKeepBoth (on Factory.Reply) |

=== FILE: checkin.dfy ===
/** Check-in of a guest by an usher. The usher must be on the usher
    roster, the guest's signature must verify, and the ticket address must
    be on the guest roster; the roster weight selects the guest's tier,
    whose access policy decides which stages are marked. Each mark is
    write-once: it turns a stored `false` into `true`. */
module CheckIn {
  import opened Wrappers
  import opened EventTypes
  import Delegation

  type Attendance = map<(Addr, nat), bool>

  /** `update_attendance_record`: a stored `false` becomes `true`; a
      stored `true` is an error, and so is a missing record. */
  function MarkAttendance(att: Attendance, addr: Addr, id: nat): (r: Result<Attendance, Error>)
    ensures r.Ok? <==> (addr, id) in att && !att[(addr, id)]
    ensures r == Err(GuestAlreadyCheckedIn) <==> (addr, id) in att && att[(addr, id)]
    ensures r == Err(GuestTypeIncorrect) <==> (addr, id) !in att
    ensures r.Ok? ==> r.value == att[(addr, id) := true]
  {
    if (addr, id) !in att then Err(GuestTypeIncorrect)
    else if att[(addr, id)] then Err(GuestAlreadyCheckedIn)
    else Ok(att[(addr, id) := true])
  }

  /** `after` differs from `before` only by records of `addr` turning from
      `false` to `true`: no record is created or removed, and a `true`
      record stays `true`. */
  ghost predicate OnlyChecksIn(before: Attendance, after: Attendance, addr: Addr) {
    && after.Keys == before.Keys
    && forall k :: k in before ==> (before[k] ==> after[k]) && (after[k] != before[k] ==> k.0 == addr)
  }

  /** Marks stages in order, stopping at the first failure. It succeeds
      exactly when the stage ids are distinct and each has a `false` record
      for `addr`; those records, and only those, become `true`. */
  function MarkEach(att: Attendance, addr: Addr, ids: seq<nat>): (r: Result<Attendance, Error>)
    ensures r.Ok? <==> Delegation.NoDuplicates(ids)
                       && forall i :: 0 <= i < |ids| ==> (addr, ids[i]) in att && !att[(addr, ids[i])]
    ensures r.Ok? ==> r.value.Keys == att.Keys
    ensures r.Ok? ==> forall k :: k in att ==> r.value[k] == (att[k] || (k.0 == addr && k.1 in ids))
    decreases |ids|
  {
    if ids == [] then Ok(att)
    else
      var a1 :- MarkAttendance(att, addr, ids[0]);
      assert forall i :: 1 <= i < |ids| ==> ids[i] == ids[1..][i - 1];
      assert ids == [ids[0]] + ids[1..];
      Delegation.NoDuplicatesCons(ids[0], ids[1..]);
      MarkEach(a1, addr, ids[1..])
  }

  /** Marks the claimed stages in order, each of which must be one of the
      allowed stages: the check of each id comes just before its mark, so
      the first id outside the allowed stages fails with
      `IncorrectEventSegmentId` when every mark before it succeeded, and a
      mark that fails among allowed ids reports its own error first. */
  function MarkClaimed(att: Attendance, addr: Addr, allowed: seq<nat>, claimed: seq<nat>): (r: Result<Attendance, Error>)
    ensures r.Ok? ==> forall i :: 0 <= i < |claimed| ==> claimed[i] in allowed
    ensures (forall i :: 0 <= i < |claimed| ==> claimed[i] in allowed) ==> r == MarkEach(att, addr, claimed)
    ensures forall i :: (0 <= i < |claimed| && claimed[i] !in allowed
                         && (forall j :: 0 <= j < i ==> claimed[j] in allowed)
                         && MarkEach(att, addr, claimed[..i]).Ok?)
                        ==> r == Err(IncorrectEventSegmentId)
    ensures forall i :: (0 <= i <= |claimed| && (forall j :: 0 <= j < i ==> claimed[j] in allowed)
                         && MarkEach(att, addr, claimed[..i]).Err?)
                        ==> r == MarkEach(att, addr, claimed[..i])
    decreases |claimed|
  {
    if claimed == [] then Ok(att)
    else if claimed[0] !in allowed then Err(IncorrectEventSegmentId)
    else
      var a1 :- MarkAttendance(att, addr, claimed[0]);
      assert forall i :: 1 <= i < |claimed| ==> claimed[i] == claimed[1..][i - 1];
      assert forall i :: 1 <= i <= |claimed| ==> claimed[..i][0] == claimed[0] && claimed[..i][1..] == claimed[1..][..i - 1];
      MarkClaimed(a1, addr, allowed, claimed[1..])
  }

  /** The access policy of the guest's tier, applied to the claimed ids. */
  function ApplyPolicy(att: Attendance, addr: Addr, policy: AccessPolicy, claimed: seq<nat>): (r: Result<Attendance, Error>)
    ensures r.Ok? ==> r.value.Keys == att.Keys
    ensures r.Ok? ==> forall k :: k in att ==> (att[k] ==> r.value[k]) && (r.value[k] != att[k] ==> k.0 == addr)
  {
    match policy
    case SingleSegment(id) =>
      if id !in claimed then Err(IncorrectEventSegmentId) else MarkAttendance(att, addr, id)
    case AnyOfSpecificSegments(ids) => MarkClaimed(att, addr, ids, claimed)
    case AllOfSpecificSegments(ids) => MarkEach(att, addr, ids)
  }

  /** `perform_checkin_guest`. `ushers` and `guests` are the two rosters'
      weights by address, `signatureValid` the outcome of verifying the
      guest's signature over its check-in message, and `claimed` the stage
      ids in that message. The checks run in order: usher, signature, guest
      roster, tier. A successful check-in changes attendance only, and only
      by turning `false` records of the ticket address to `true`. */
  function CheckIn(s: EventState, caller: Addr, ushers: map<Addr, nat>, guests: map<Addr, nat>,
                   signatureValid: bool, ticketAddr: Addr, claimed: seq<nat>): (r: Result<EventState, Error>)
    ensures caller !in ushers ==> r == Err(NotAnEventUsher)
    ensures caller in ushers && !signatureValid ==> r == Err(CheckinVerificationFailed)
    ensures caller in ushers && signatureValid && ticketAddr !in guests ==> r == Err(GuestTypeIncorrect)
    ensures caller in ushers && signatureValid && ticketAddr in guests && guests[ticketAddr] !in s.tiers
            ==> r == Err(NotFound)
    ensures caller in ushers && signatureValid && ticketAddr in guests && guests[ticketAddr] in s.tiers ==>
      var p := ApplyPolicy(s.attendance, ticketAddr, s.tiers[guests[ticketAddr]].access, claimed);
      && (r.Ok? <==> p.Ok?)
      && (p.Ok? ==> r.value.attendance == p.value)
      && (p.Err? ==> r == Err(p.error))
    ensures r.Ok? ==> r.value == s.(attendance := r.value.attendance)
    ensures r.Ok? ==> OnlyChecksIn(s.attendance, r.value.attendance, ticketAddr)
  {
    if caller !in ushers then Err(NotAnEventUsher)
    else if !signatureValid then Err(CheckinVerificationFailed)
    else if ticketAddr !in guests then Err(GuestTypeIncorrect)
    else if guests[ticketAddr] !in s.tiers then Err(NotFound)
    else
      var att :- ApplyPolicy(s.attendance, ticketAddr, s.tiers[guests[ticketAddr]].access, claimed);
      Ok(s.(attendance := att))
  }

  /** The tier access policy of a guest who passed the roster checks. */
  predicate PolicyIs(s: EventState, guests: map<Addr, nat>, ticketAddr: Addr, p: AccessPolicy) {
    ticketAddr in guests && guests[ticketAddr] in s.tiers && s.tiers[guests[ticketAddr]].access == p
  }

  /** SingleSegment{id}: the claimed ids must contain `id` (other claimed
      ids are allowed and ignored), and exactly the record for `id` is
      marked. */
  lemma SingleSegmentCheckIn(s: EventState, caller: Addr, ushers: map<Addr, nat>, guests: map<Addr, nat>,
                             ticketAddr: Addr, claimed: seq<nat>, id: nat)
    requires caller in ushers
    requires PolicyIs(s, guests, ticketAddr, SingleSegment(id))
    ensures id !in claimed ==> CheckIn(s, caller, ushers, guests, true, ticketAddr, claimed) == Err(IncorrectEventSegmentId)
    ensures id in claimed ==> CheckIn(s, caller, ushers, guests, true, ticketAddr, claimed)
                              == CheckIn(s, caller, ushers, guests, true, ticketAddr, [id])
    ensures id in claimed ==> CheckIn(s, caller, ushers, guests, true, ticketAddr, claimed)
                              == (match MarkAttendance(s.attendance, ticketAddr, id)
                                  case Ok(att) => Ok(s.(attendance := att))
                                  case Err(e) => Err(e))
    ensures CheckIn(s, caller, ushers, guests, true, ticketAddr, claimed).Ok?
            ==> CheckIn(s, caller, ushers, guests, true, ticketAddr, claimed).value.attendance
                == s.attendance[(ticketAddr, id) := true]
  {
    assert id in [id];
  }

  /** AnyOfSpecificSegments{ids}: a claimed id outside `ids` fails the
      check-in; otherwise each claimed id is marked, in order. */
  lemma AnyOfCheckIn(s: EventState, caller: Addr, ushers: map<Addr, nat>, guests: map<Addr, nat>,
                     ticketAddr: Addr, claimed: seq<nat>, ids: seq<nat>)
    requires caller in ushers
    requires PolicyIs(s, guests, ticketAddr, AnyOfSpecificSegments(ids))
    ensures (exists i :: 0 <= i < |claimed| && claimed[i] !in ids)
            ==> CheckIn(s, caller, ushers, guests, true, ticketAddr, claimed).Err?
    ensures |claimed| > 0 && claimed[0] !in ids
            ==> CheckIn(s, caller, ushers, guests, true, ticketAddr, claimed) == Err(IncorrectEventSegmentId)
    ensures forall i :: (0 <= i < |claimed| && claimed[i] !in ids
                         && (forall j :: 0 <= j < i ==> claimed[j] in ids)
                         && MarkEach(s.attendance, ticketAddr, claimed[..i]).Ok?)
                        ==> CheckIn(s, caller, ushers, guests, true, ticketAddr, claimed) == Err(IncorrectEventSegmentId)
    ensures forall i :: (0 <= i <= |claimed| && (forall j :: 0 <= j < i ==> claimed[j] in ids)
                         && MarkEach(s.attendance, ticketAddr, claimed[..i]).Err?)
                        ==> CheckIn(s, caller, ushers, guests, true, ticketAddr, claimed)
                            == Err(MarkEach(s.attendance, ticketAddr, claimed[..i]).error)
    ensures (forall i :: 0 <= i < |claimed| ==> claimed[i] in ids)
            ==> CheckIn(s, caller, ushers, guests, true, ticketAddr, claimed)
                == (match MarkEach(s.attendance, ticketAddr, claimed)
                    case Ok(att) => Ok(s.(attendance := att))
                    case Err(e) => Err(e))
  {
  }

  /** AllOfSpecificSegments{ids}: the claimed ids play no part; every id
      of the tier is marked. */
  lemma AllOfCheckIn(s: EventState, caller: Addr, ushers: map<Addr, nat>, guests: map<Addr, nat>,
                     ticketAddr: Addr, claimed: seq<nat>, other: seq<nat>, ids: seq<nat>)
    requires caller in ushers
    requires PolicyIs(s, guests, ticketAddr, AllOfSpecificSegments(ids))
    ensures CheckIn(s, caller, ushers, guests, true, ticketAddr, claimed)
            == CheckIn(s, caller, ushers, guests, true, ticketAddr, other)
    ensures CheckIn(s, caller, ushers, guests, true, ticketAddr, claimed)
            == (match MarkEach(s.attendance, ticketAddr, ids)
                case Ok(att) => Ok(s.(attendance := att))
                case Err(e) => Err(e))
    ensures CheckIn(s, caller, ushers, guests, true, ticketAddr, claimed).Ok?
            ==> forall i :: 0 <= i < |ids| ==>
                  CheckIn(s, caller, ushers, guests, true, ticketAddr, claimed).value.attendance[(ticketAddr, ids[i])]
  {
  }

  /** Write-once: once a guest is checked into a stage, a repeat of the
      same SingleSegment check-in fails with `GuestAlreadyCheckedIn`. */
  lemma SecondCheckInFails(s: EventState, caller: Addr, ushers: map<Addr, nat>, guests: map<Addr, nat>,
                           ticketAddr: Addr, claimed: seq<nat>, id: nat)
    requires PolicyIs(s, guests, ticketAddr, SingleSegment(id))
    requires CheckIn(s, caller, ushers, guests, true, ticketAddr, claimed).Ok?
    ensures var s' := CheckIn(s, caller, ushers, guests, true, ticketAddr, claimed).value;
            CheckIn(s', caller, ushers, guests, true, ticketAddr, claimed) == Err(GuestAlreadyCheckedIn)
  {
  }

  /** No check-in creates an attendance record, and a new event has none:
      on an event with no records, every check-in either fails or changes
      nothing. */
  lemma NoRecordNoCheckIn(s: EventState, caller: Addr, ushers: map<Addr, nat>, guests: map<Addr, nat>,
                          signatureValid: bool, ticketAddr: Addr, claimed: seq<nat>)
    requires s.attendance == map[]
    requires CheckIn(s, caller, ushers, guests, signatureValid, ticketAddr, claimed).Ok?
    ensures CheckIn(s, caller, ushers, guests, signatureValid, ticketAddr, claimed).value == s
  {
  }
}

=== FILE: coins.dfy ===
/** Bank coins: a denomination and an unbounded amount (`Uint128` in the
    contracts; every product in this model goes through a wide
    intermediate, so no width is modelled). */
module Coins {

  type Denom = string

  datatype Coin = Coin(denom: Denom, amount: nat)

  /** Sum of the amounts of all coins of denomination `d`. */
  function Total(coins: seq<Coin>, d: Denom): nat {
    if coins == [] then 0
    else (if coins[0].denom == d then coins[0].amount else 0) + Total(coins[1..], d)
  }

  /** Index of the first coin of denomination `d`, as `iter().find` visits it. */
  function FirstIndex(coins: seq<Coin>, d: Denom): (r: int)
    ensures -1 <= r < |coins|
    ensures r >= 0 ==> coins[r].denom == d
    ensures r >= 0 ==> forall j :: 0 <= j < r ==> coins[j].denom != d
    ensures r < 0 <==> forall j :: 0 <= j < |coins| ==> coins[j].denom != d
  {
    if coins == [] then -1
    else if coins[0].denom == d then 0
    else
      var k := FirstIndex(coins[1..], d);
      if k < 0 then -1 else k + 1
  }

  predicate DistinctDenoms(coins: seq<Coin>) {
    forall i, j :: 0 <= i < j < |coins| ==> coins[i].denom != coins[j].denom
  }

  lemma {:induction false} TotalAppend(a: seq<Coin>, b: seq<Coin>, d: Denom)
    ensures Total(a + b, d) == Total(a, d) + Total(b, d)
    decreases |a|
  {
    if a != [] {
      assert (a + b)[1..] == a[1..] + b;
      TotalAppend(a[1..], b, d);
    } else {
      assert a + b == b;
    }
  }

  /** Changing the amount of one coin changes the total of its own
      denomination by the difference and no other total. */
  lemma {:induction false} TotalUpdate(coins: seq<Coin>, i: nat, amount: nat, d: Denom)
    requires i < |coins|
    ensures Total(coins[i := Coin(coins[i].denom, amount)], d) + (if coins[i].denom == d then coins[i].amount else 0)
         == Total(coins, d) + (if coins[i].denom == d then amount else 0)
    decreases i
  {
    var c := coins[i := Coin(coins[i].denom, amount)];
    if i > 0 {
      assert c[1..] == coins[1..][i - 1 := Coin(coins[i].denom, amount)];
      TotalUpdate(coins[1..], i - 1, amount, d);
    } else {
      assert c[1..] == coins[1..];
    }
  }

  /** With one coin per denomination, the first coin of a denomination
      holds all of it. */
  lemma {:induction false} FirstCoinHoldsTotal(coins: seq<Coin>, d: Denom)
    requires DistinctDenoms(coins)
    requires FirstIndex(coins, d) >= 0
    ensures coins[FirstIndex(coins, d)].amount == Total(coins, d)
    decreases |coins|
  {
    if coins[0].denom != d {
      assert forall j :: 1 <= j < |coins| ==> coins[j] == coins[1..][j - 1];
      FirstCoinHoldsTotal(coins[1..], d);
    } else {
      TotalNone(coins[1..], d);
    }
  }

  lemma {:induction false} TotalNone(coins: seq<Coin>, d: Denom)
    requires forall j :: 0 <= j < |coins| ==> coins[j].denom != d
    ensures Total(coins, d) == 0
    decreases |coins|
  {
    if coins != [] {
      TotalNone(coins[1..], d);
    }
  }
}

=== FILE: delegation.dfy ===
/** The "homie" delegation lists: for each wallet, the ticket addresses it
    reserved on behalf of other wallets. Purchase appends to the buyer's
    list, a delegate claiming its ticket removes itself from the buyer's
    list, and a ticket-wallet update rewrites the caller's list. */
module Delegation {
  import opened Wrappers
  import opened EventTypes

  predicate NoDuplicates<T(==)>(s: seq<T>) {
    forall i, j :: 0 <= i < j < |s| ==> s[i] != s[j]
  }

  /** The stored list of `owner`, or the empty list when none is stored. */
  function ListOf(homies: map<Addr, seq<Addr>>, owner: Addr): seq<Addr> {
    if owner in homies then homies[owner] else []
  }

  /** The ticket addresses of a purchase that differ from the buyer, in order. */
  function Delegates(reap: seq<Registration>, buyer: Addr): (r: seq<Addr>)
    ensures forall a :: a in r <==> exists i :: 0 <= i < |reap| && reap[i].ticketAddr == a && a != buyer
    ensures |r| <= |reap|
  {
    if reap == [] then []
    else
      var rest := Delegates(reap[1..], buyer);
      assert forall i :: 1 <= i < |reap| ==> reap[i] == reap[1..][i - 1];
      if reap[0].ticketAddr != buyer then [reap[0].ticketAddr] + rest else rest
  }

  /** `Delegates` keeps order and multiplicity: a purchase's delegates are
      those of its first entries followed by those of the rest. */
  lemma {:induction false} DelegatesConcat(a: seq<Registration>, b: seq<Registration>, buyer: Addr)
    ensures Delegates(a + b, buyer) == Delegates(a, buyer) + Delegates(b, buyer)
    decreases |a|
  {
    if a == [] {
      assert a + b == b;
    } else {
      assert (a + b)[0] == a[0] && (a + b)[1..] == a[1..] + b;
      DelegatesConcat(a[1..], b, buyer);
    }
  }

  /** One entry delegates its ticket address exactly when it is not the
      buyer's own. */
  lemma DelegatesOne(e: Registration, buyer: Addr)
    ensures Delegates([e], buyer) == if e.ticketAddr != buyer then [e.ticketAddr] else []
  {
    assert [e][1..] == [];
  }

  lemma NoDuplicatesCons<T>(t: T, rest: seq<T>)
    ensures NoDuplicates([t] + rest) <==> t !in rest && NoDuplicates(rest)
  {
    var s := [t] + rest;
    assert forall i :: 1 <= i < |s| ==> s[i] == rest[i - 1];
    if t !in rest && NoDuplicates(rest) {
      forall i, j | 0 <= i < j < |s| ensures s[i] != s[j] {
        if i > 0 {
          assert s[i] == rest[i - 1] && s[j] == rest[j - 1];
        } else {
          assert s[j] in rest;
        }
      }
    }
    if t in rest {
      var k :| 0 <= k < |rest| && rest[k] == t;
      assert s[0] == s[k + 1];
    }
    if NoDuplicates(s) {
      assert forall i, j :: 0 <= i < j < |rest| ==> rest[i] == s[i + 1] && rest[j] == s[j + 1];
    }
  }

  /** Records the delegated tickets of a purchase, one at a time: a ticket
      for another wallet is appended to the buyer's list, and is an error if
      the list already holds it. It succeeds exactly when the delegated
      addresses are distinct and none is on the buyer's list yet; the
      buyer's list then grows by exactly those addresses, in order, and no
      other list changes. */
  function RecordDelegates(homies: map<Addr, seq<Addr>>, buyer: Addr, reap: seq<Registration>)
    : (r: Result<map<Addr, seq<Addr>>, Error>)
    ensures r.Ok? <==> NoDuplicates(Delegates(reap, buyer))
                       && forall a :: a in Delegates(reap, buyer) ==> a !in ListOf(homies, buyer)
    ensures r.Ok? && Delegates(reap, buyer) == [] ==> r.value == homies
    ensures r.Ok? && Delegates(reap, buyer) != [] ==>
              r.value == homies[buyer := ListOf(homies, buyer) + Delegates(reap, buyer)]
    ensures r.Err? ==> r.error == HomieTicketAlreadyRegistered
    decreases |reap|
  {
    if reap == [] then Ok(homies)
    else
      var ticket := reap[0].ticketAddr;
      if ticket == buyer then RecordDelegates(homies, buyer, reap[1..])
      else
        var list := ListOf(homies, buyer);
        var later := Delegates(reap[1..], buyer);
        assert Delegates(reap, buyer) == [ticket] + later;
        NoDuplicatesCons(ticket, later);
        if ticket in list then Err(HomieTicketAlreadyRegistered)
        else
          var grown := homies[buyer := list + [ticket]];
          assert ListOf(grown, buyer) == list + [ticket];
          assert list + [ticket] + later == list + ([ticket] + later);
          assert later == [] ==> list + ([ticket] + later) == list + [ticket];
          assert grown[buyer := list + [ticket] + later] == homies[buyer := list + [ticket] + later];
          RecordDelegates(grown, buyer, reap[1..])
  }

  /** Position of the first occurrence of `x` in `list`. */
  function IndexOf(list: seq<Addr>, x: Addr): (i: nat)
    requires x in list
    ensures i < |list| && list[i] == x && x !in list[..i]
  {
    if list[0] == x then 0
    else
      var k := IndexOf(list[1..], x);
      assert list[..k + 1] == [list[0]] + list[1..][..k];
      k + 1
  }

  /** Removes the first occurrence of `x`, if any: an absent `x` leaves the
      list as it was; a present one leaves the list one shorter, with one
      occurrence fewer of `x` and every other element kept. */
  function RemoveFirst(list: seq<Addr>, x: Addr): (r: seq<Addr>)
    ensures x !in list ==> r == list
    ensures x in list ==> |r| == |list| - 1
    ensures multiset(r) == multiset(list) - multiset{x}
    ensures x in list ==>
              exists i :: 0 <= i < |list| && list[i] == x && x !in list[..i] && r == list[..i] + list[i + 1..]
  {
    if x in list then
      var i := IndexOf(list, x);
      assert list == list[..i] + [x] + list[i + 1..];
      list[..i] + list[i + 1..]
    else
      list
  }

  /** A delegate claims the ticket `reserver` bought for it: its address
      leaves the reserver's list (first occurrence only; an absent caller
      leaves the list as it was). A reserver without a list is an error. */
  function ClaimTicketReservedByHomie(s: EventState, caller: Addr, reserver: Addr): (r: Result<EventState, Error>)
    ensures r.Ok? <==> reserver in s.homies
    ensures r.Err? ==> r.error == NoHomieReservation
    ensures r.Ok? ==> r.value == s.(homies := s.homies[reserver := RemoveFirst(s.homies[reserver], caller)])
  {
    if reserver !in s.homies then Err(NoHomieReservation)
    else Ok(s.(homies := s.homies[reserver := RemoveFirst(s.homies[reserver], caller)]))
  }

  /** Claiming undoes a purchase's delegation: when `buyer` reserves a
      ticket for `caller` that its list did not hold, `caller` claiming it
      restores the buyer's list. */
  lemma ClaimUndoesDelegation(s: EventState, buyer: Addr, caller: Addr, d: string)
    requires buyer != caller
    requires buyer in s.homies && caller !in s.homies[buyer]
    ensures var h := RecordDelegates(s.homies, buyer, [Registration(caller, d)]);
            h.Ok? && ClaimTicketReservedByHomie(s.(homies := h.value), caller, buyer) == Ok(s)
  {
    var reap := [Registration(caller, d)];
    var list := s.homies[buyer];
    assert Delegates(reap, buyer) == [caller] by {
      assert reap[1..] == [];
    }
    var h := RecordDelegates(s.homies, buyer, reap);
    assert h == Ok(s.homies[buyer := list + [caller]]);
    RemoveLastAppended(list, caller);
    var claimed := ClaimTicketReservedByHomie(s.(homies := h.value), caller, buyer);
    assert claimed == Ok(s.(homies := s.homies[buyer := list + [caller]][buyer := list]));
    assert s.homies[buyer := list + [caller]][buyer := list] == s.homies;
  }

  lemma RemoveLastAppended(list: seq<Addr>, x: Addr)
    requires x !in list
    ensures RemoveFirst(list + [x], x) == list
  {
    var l := list + [x];
    var i := IndexOf(l, x);
    assert i == |list|;
    assert l[..i] == list && l[i + 1..] == [];
  }

  /** The replacement of one delegate: the `newAddr` of the first update
      whose `oldAddr` matches, or the delegate itself when none does. */
  function Replacement(h: Addr, updates: seq<HomieUpdate>): (r: Addr)
    ensures (forall k :: 0 <= k < |updates| ==> updates[k].oldAddr != h) ==> r == h
    ensures forall k :: (0 <= k < |updates| && updates[k].oldAddr == h
                         && forall j :: 0 <= j < k ==> updates[j].oldAddr != h) ==> r == updates[k].newAddr
    decreases |updates|
  {
    if updates == [] then h
    else if updates[0].oldAddr == h then updates[0].newAddr
    else
      assert forall k :: 1 <= k < |updates| ==> updates[k] == updates[1..][k - 1];
      Replacement(h, updates[1..])
  }

  /** Rewrites a delegation list element by element: the length is kept and
      each delegate becomes its replacement. */
  function Remap(list: seq<Addr>, updates: seq<HomieUpdate>): (r: seq<Addr>)
    ensures |r| == |list|
    ensures forall i :: 0 <= i < |list| ==> r[i] == Replacement(list[i], updates)
  {
    if list == [] then [] else [Replacement(list[0], updates)] + Remap(list[1..], updates)
  }

  /** Updates whose old addresses are not in a list leave it unchanged. */
  lemma RemapUnmatched(list: seq<Addr>, updates: seq<HomieUpdate>)
    requires forall k :: 0 <= k < |updates| ==> updates[k].oldAddr !in list
    ensures Remap(list, updates) == list
  {
  }

  /** Moving one delegate to a fresh address and back restores the list. */
  lemma RemapRoundTrip(list: seq<Addr>, a: Addr, b: Addr)
    requires b !in list
    ensures Remap(Remap(list, [HomieUpdate(a, b)]), [HomieUpdate(b, a)]) == list
  {
    var once := Remap(list, [HomieUpdate(a, b)]);
    var twice := Remap(once, [HomieUpdate(b, a)]);
    forall i | 0 <= i < |list| ensures twice[i] == list[i] {
      assert once[i] == Replacement(list[i], [HomieUpdate(a, b)]);
    }
  }

  /** A guest-roster membership entry. */
  datatype Member = Member(addr: Addr, weight: nat)

  /** The membership change sent to the guest roster. */
  datatype RosterUpdate = RosterUpdate(add: seq<Member>, remove: seq<Addr>)

  const MAX_HOMIE_UPDATES: nat := 10

  /** A ticket holder moves its own ticket and the tickets it reserved for
      others. At most ten delegate updates are accepted, and only from a
      wallet the guest roster knows (`guests` is the roster's weight per
      address). The caller's delegation list is remapped; when the remapped
      list is non-empty and a new ticket address is given, the list moves to
      that key and the caller's roster membership moves to it with the same
      weight; when it is empty, the new ticket address is ignored. For every
      delegate update, the new address joins the roster with the caller's
      weight and the old address leaves it. Nothing else in the state
      changes. */
  function UpdateTicketWallet(s: EventState, sender: Addr, guests: map<Addr, nat>,
                              newTicketAddr: Option<Addr>, updates: seq<HomieUpdate>)
    : (r: Result<(EventState, RosterUpdate), Error>)
    ensures |updates| > MAX_HOMIE_UPDATES ==> r == Err(TooManyHomieTickets)
    ensures |updates| <= MAX_HOMIE_UPDATES && sender !in guests ==> r == Err(NoReservedTicketsForGuest)
    ensures r.Ok? <==> |updates| <= MAX_HOMIE_UPDATES && sender in guests
    ensures r.Ok? ==> r.value.0 == s.(homies := r.value.0.homies)
    ensures r.Ok? && ListOf(s.homies, sender) == [] ==>
              && r.value.0 == s
              && r.value.1.remove == seq(|updates|, k requires 0 <= k < |updates| => updates[k].oldAddr)
    ensures r.Ok? && ListOf(s.homies, sender) != [] && newTicketAddr.None? ==>
              && r.value.0.homies == s.homies[sender := Remap(s.homies[sender], updates)]
              && |r.value.0.homies[sender]| == |s.homies[sender]|
    ensures r.Ok? && ListOf(s.homies, sender) != [] && newTicketAddr.Some? ==>
              && r.value.0.homies == (s.homies - {sender})[newTicketAddr.value := Remap(s.homies[sender], updates)]
              && |r.value.1.add| > 0 && |r.value.1.remove| > 0
              && r.value.1.add[0] == Member(newTicketAddr.value, guests[sender])
              && r.value.1.remove[0] == sender
    ensures r.Ok? ==>
              var offset := if ListOf(s.homies, sender) != [] && newTicketAddr.Some? then 1 else 0;
              && |r.value.1.add| == offset + |updates|
              && |r.value.1.remove| == offset + |updates|
              && (forall k :: 0 <= k < |updates| ==>
                    && r.value.1.add[offset + k] == Member(updates[k].newAddr, guests[sender])
                    && r.value.1.remove[offset + k] == updates[k].oldAddr)
  {
    if |updates| > MAX_HOMIE_UPDATES then Err(TooManyHomieTickets)
    else if sender !in guests then Err(NoReservedTicketsForGuest)
    else
      var weight := guests[sender];
      var list := if sender in s.homies then Remap(s.homies[sender], updates) else [];
      var joining := seq(|updates|, k requires 0 <= k < |updates| => Member(updates[k].newAddr, weight));
      var leaving := seq(|updates|, k requires 0 <= k < |updates| => updates[k].oldAddr);
      if |list| == 0 then
        Ok((s, RosterUpdate(joining, leaving)))
      else
        match newTicketAddr
        case Some(n) =>
          Ok((s.(homies := (s.homies - {sender})[n := list]),
              RosterUpdate([Member(n, weight)] + joining, [sender] + leaving)))
        case None =>
          Ok((s.(homies := s.homies[sender := list]), RosterUpdate(joining, leaving)))
  }
}

=== FILE: event_types.dfy ===
/** Data model of one event contract: its tier (guest type) definitions,
    its stage timeline, the reservation counters, the attendance records
    and the "homie" delegation lists, each a keyed storage table. */
module EventTypes {
  import opened Coins

  type Addr = string

  /** Bound on the length of titles, descriptions and tier labels. */
  const CHARACTER_LIMIT: nat := 128

  /** Which stages a guest of a tier may check into. */
  datatype AccessPolicy =
    | SingleSegment(id: nat)
    | AnyOfSpecificSegments(ids: seq<nat>)
    | AllOfSpecificSegments(ids: seq<nat>)

  /** A guest tier, keyed by its roster weight. */
  datatype Tier = Tier(
    guestType: string,
    weight: nat,
    maxPerWallet: nat,
    totalLimit: nat,
    cost: seq<Coin>,
    access: AccessPolicy)

  /** One stage of the event timeline; times are block timestamps. */
  datatype Stage = Stage(description: string, start: nat, end: nat)

  /** One requested ticket: the wallet it is for and the denomination it is paid in. */
  datatype Registration = Registration(ticketAddr: Addr, paymentAsset: Denom)

  /** The tickets requested for one tier in a purchase. */
  datatype GuestGroup = GuestGroup(weight: nat, reap: seq<Registration>)

  /** A request to move a delegated ticket from one wallet to another. */
  datatype HomieUpdate = HomieUpdate(oldAddr: Addr, newAddr: Addr)

  datatype Config = Config(title: string, description: string, curator: Addr)

  datatype Error =
    | NoLicenseAddress
    | BadEventTitleOrDescription
    | DuplicateGuestWeight
    | BadGuestDetailParams
    | DuplicateFeeDenom
    | InvalidEventDates
    | BadEventDescriptionLength
    | OverlappingEventDates
    | NotFound                         // a storage load of an absent key
    | CannotReserveTicketCount
    | HomieTicketAlreadyRegistered
    | NoHomieReservation
    | NotAnEventUsher
    | CheckinVerificationFailed
    | GuestTypeIncorrect
    | IncorrectEventSegmentId
    | GuestAlreadyCheckedIn
    | TooManyHomieTickets
    | NoReservedTicketsForGuest

  /** The contract's storage.
      - `tiers`: guest details by weight;
      - `totalReserved`: the per-tier total counter, by weight;
      - `reserved`: the reservation counter checked against `maxPerWallet`, by weight;
      - `stages`: the timeline, by 0-based position;
      - `attendance`: check-in flag by (ticket address, stage id);
      - `homies`: ticket addresses each wallet reserved for other wallets. */
  datatype EventState = EventState(
    config: Config,
    licenseAddr: Addr,
    tiers: map<nat, Tier>,
    totalReserved: map<nat, nat>,
    reserved: map<nat, nat>,
    stages: map<nat, Stage>,
    attendance: map<(Addr, nat), bool>,
    homies: map<Addr, seq<Addr>>)
}

=== FILE: factory.dfy ===
/** The factory contract: an owner-gated entry point that instantiates
    event contracts, a reply handler that records each new contract under
    its address together with the account that asked for it, and paginated
    listings of the records, all of them or one instantiator's, in either
    key order. */
module Factory {
  import opened Wrappers
  import opened Ordering

  type Addr = string

  const INSTANTIATE_CONTRACT_REPLY_ID: nat := 0
  const DEFAULT_LIMIT: nat := 10
  const MAX_LIMIT: nat := 50

  datatype ContractRecord = ContractRecord(contract: Addr, instantiator: Addr)

  /** `owner` is the `cw_ownable` owner, `codeId` the event contract code
      id, `pending` the temporary instantiator kept between a creation and
      its reply, and `contracts` the record table keyed by contract
      address. */
  datatype FactoryState = FactoryState(
    owner: Option<Addr>,
    codeId: nat,
    pending: Option<Addr>,
    contracts: map<Addr, ContractRecord>)

  datatype FactoryError =
    | Unauthorized
    | NoOwner
    | NotOwner
    | NotFound
    | InvalidAddress
    | UnknownReplyId(id: nat)

  /** The submessage a creation emits: instantiate code `codeId`, reply id
      0, and the payload the reply will carry back. */
  datatype Instantiation = Instantiation(codeId: nat, replyId: nat, payload: seq<bv8>)

  /** `instantiate`: the owner (if any) and the event code id; no record
      and no pending instantiator yet. */
  function Instantiate(owner: Option<Addr>, codeId: nat): (s: FactoryState)
    ensures s.owner == owner && s.codeId == codeId
    ensures s.pending.None? && s.contracts == map[]
  {
    FactoryState(owner, codeId, None, map[])
  }

  /** `execute_instantiate_native_shitstrap_contract` with the owner gate
      of `instantiate_contract`. Creation is refused exactly when an owner
      is set and the sender is someone else. On success the sender becomes
      the pending instantiator and the current code id is instantiated.
      `SubMsg::reply_on_success` sets no payload, so the payload is empty. */
  function CreateEventContract(s: FactoryState, sender: Addr): (r: Result<(FactoryState, Instantiation), FactoryError>)
    ensures r.Err? <==> s.owner.Some? && s.owner.value != sender
    ensures r.Err? ==> r.error == Unauthorized
    ensures r.Ok? ==> r.value.0 == s.(pending := Some(sender))
    ensures r.Ok? ==> r.value.1 == Instantiation(s.codeId, INSTANTIATE_CONTRACT_REPLY_ID, [])
  {
    if s.owner.Some? && s.owner.value != sender then Err(Unauthorized)
    else Ok((s.(pending := Some(sender)), Instantiation(s.codeId, INSTANTIATE_CONTRACT_REPLY_ID, [])))
  }

  /** `execute_update_code_id`: `cw_ownable::assert_owner`, then the new
      code id is stored and nothing else changes. */
  function UpdateCodeId(s: FactoryState, sender: Addr, codeId: nat): (r: Result<FactoryState, FactoryError>)
    ensures r.Ok? <==> s.owner == Some(sender)
    ensures s.owner.None? ==> r == Err(NoOwner)
    ensures s.owner.Some? && s.owner.value != sender ==> r == Err(NotOwner)
    ensures r.Ok? ==> r.value == s.(codeId := codeId)
  {
    if s.owner.None? then Err(NoOwner)
    else if s.owner.value != sender then Err(NotOwner)
    else Ok(s.(codeId := codeId))
  }

  /** A code id update takes effect for the next creation: the owner
      updates it and then instantiates the new code. */
  lemma UpdateThenCreate(s: FactoryState, sender: Addr, codeId: nat)
    requires UpdateCodeId(s, sender, codeId).Ok?
    ensures var c := CreateEventContract(UpdateCodeId(s, sender, codeId).value, sender);
            c.Ok? && c.value.1.codeId == codeId
  {
  }

  /** `reply` with the address of the instantiated contract, as the
      instantiate result reports it: for reply id 0, the new contract is
      recorded under its address with the pending instantiator, which is
      then cleared; any other id is refused. This is the reply the rest of
      the model uses; `ReplyAsWritten` is the handler as the code reads the
      address. */
  function Reply(s: FactoryState, id: nat, contract: Addr): (r: Result<FactoryState, FactoryError>)
    ensures id != INSTANTIATE_CONTRACT_REPLY_ID ==> r == Err(UnknownReplyId(id))
    ensures id == INSTANTIATE_CONTRACT_REPLY_ID && s.pending.None? ==> r == Err(NotFound)
    ensures r.Ok? <==> id == INSTANTIATE_CONTRACT_REPLY_ID && s.pending.Some?
    ensures r.Ok? ==> r.value.contracts.Keys == s.contracts.Keys + {contract}
    ensures r.Ok? ==> r.value.contracts[contract] == ContractRecord(contract, s.pending.value)
    ensures r.Ok? ==> forall a :: a in s.contracts && a != contract ==> r.value.contracts[a] == s.contracts[a]
    ensures r.Ok? ==> r.value.pending.None? && r.value.owner == s.owner && r.value.codeId == s.codeId
  {
    if id != INSTANTIATE_CONTRACT_REPLY_ID then Err(UnknownReplyId(id))
    else if s.pending.None? then Err(NotFound)
    else Ok(s.(contracts := s.contracts[contract := ContractRecord(contract, s.pending.value)], pending := None))
  }

  /** `reply` as written: the address is decoded from the reply's
      `payload` by `addr_humanize` (`humanize`, `None` where it fails)
      before the pending instantiator is loaded, and the record is stored
      under whatever address that gives. */
  function ReplyAsWritten(s: FactoryState, id: nat, payload: seq<bv8>, humanize: seq<bv8> -> Option<Addr>)
    : (r: Result<FactoryState, FactoryError>)
    ensures id != INSTANTIATE_CONTRACT_REPLY_ID ==> r == Err(UnknownReplyId(id))
    ensures id == INSTANTIATE_CONTRACT_REPLY_ID && humanize(payload).None? ==> r == Err(InvalidAddress)
    ensures r.Ok? <==> id == INSTANTIATE_CONTRACT_REPLY_ID && humanize(payload).Some? && s.pending.Some?
    ensures id == INSTANTIATE_CONTRACT_REPLY_ID && humanize(payload).Some? ==> r == Reply(s, id, humanize(payload).value)
  {
    if id != INSTANTIATE_CONTRACT_REPLY_ID then Err(UnknownReplyId(id))
    else
      match humanize(payload)
      case None => Err(InvalidAddress)
      case Some(a) => Reply(s, id, a)
  }

  /** As written, every reply decodes the same empty payload: with no
      owner, two creations by `alice` and `bob` either fail at the first
      reply (when the empty address does not decode) or store both records
      under the one key the empty payload decodes to, so `bob`'s record
      replaces `alice`'s. */
  lemma AsWrittenCreationsShareOneKey(s: FactoryState, alice: Addr, bob: Addr, humanize: seq<bv8> -> Option<Addr>)
    requires s.owner.None?
    ensures var c1 := CreateEventContract(s, alice).value;
            var r1 := ReplyAsWritten(c1.0, c1.1.replyId, c1.1.payload, humanize);
            && (r1.Ok? <==> humanize([]).Some?)
            && (r1.Ok? ==>
                  var k := humanize([]).value;
                  var c2 := CreateEventContract(r1.value, bob).value;
                  var r2 := ReplyAsWritten(c2.0, c2.1.replyId, c2.1.payload, humanize);
                  && r2.Ok?
                  && r2.value.contracts.Keys == s.contracts.Keys + {k}
                  && r2.value.contracts[k] == ContractRecord(k, bob))
  {
  }

  /** With the address of each instantiated contract, two creations keep
      two records, each under its own contract with its own creator. */
  lemma CreationsKeepBoth(s: FactoryState, alice: Addr, bob: Addr, first: Addr, second: Addr)
    requires s.owner.None?
    requires first != second
    ensures var c1 := CreateEventContract(s, alice).value;
            var r1 := Reply(c1.0, c1.1.replyId, first);
            && r1.Ok?
            && var c2 := CreateEventContract(r1.value, bob).value;
               var r2 := Reply(c2.0, c2.1.replyId, second);
               && r2.Ok?
               && r2.value.contracts.Keys == s.contracts.Keys + {first, second}
               && r2.value.contracts[first] == ContractRecord(first, alice)
               && r2.value.contracts[second] == ContractRecord(second, bob)
  {
  }

  /** A creation followed by its reply records the creator as the
      instantiator of the new contract. */
  lemma CreateThenReplyRecordsCreator(s: FactoryState, sender: Addr, contract: Addr)
    requires CreateEventContract(s, sender).Ok?
    ensures var s1 := CreateEventContract(s, sender).value.0;
            && Reply(s1, INSTANTIATE_CONTRACT_REPLY_ID, contract).Ok?
            && Reply(s1, INSTANTIATE_CONTRACT_REPLY_ID, contract).value.contracts[contract]
               == ContractRecord(contract, sender)
  {
  }

  /** Every record is stored under its own contract address. */
  predicate Keyed(contracts: map<Addr, ContractRecord>) {
    forall a :: a in contracts ==> contracts[a].contract == a
  }

  predicate KeyedByContract(s: FactoryState) {
    Keyed(s.contracts)
  }

  lemma {:induction false} ReplyKeepsKeyedByContract(s: FactoryState, id: nat, contract: Addr)
    requires KeyedByContract(s)
    requires Reply(s, id, contract).Ok?
    ensures KeyedByContract(Reply(s, id, contract).value)
  {
    var s' := Reply(s, id, contract).value;
    forall a | a in s'.contracts ensures s'.contracts[a].contract == a {
      if a != contract {
        assert s'.contracts[a] == s.contracts[a];
      }
    }
  }

  /** `limit.unwrap_or(DEFAULT_LIMIT).min(MAX_LIMIT)`. */
  function PageSize(limit: Option<nat>): (n: nat)
    ensures n <= MAX_LIMIT
    ensures limit.None? ==> n == DEFAULT_LIMIT
    ensures limit.Some? && limit.value <= MAX_LIMIT ==> n == limit.value
    ensures limit.Some? && limit.value > MAX_LIMIT ==> n == MAX_LIMIT
  {
    var l := limit.GetOr(DEFAULT_LIMIT);
    if l < MAX_LIMIT then l else MAX_LIMIT
  }

  /** The keys strictly between two optional exclusive bounds. */
  function Window(keys: set<Addr>, after: Option<Addr>, before: Option<Addr>): (w: set<Addr>)
    ensures forall k :: k in w <==>
              k in keys && (after.None? || LexLess(after.value, k)) && (before.None? || LexLess(k, before.value))
  {
    set k | k in keys && (after.None? || LexLess(after.value, k)) && (before.None? || LexLess(k, before.value))
  }

  /** `k` comes no earlier than the listed keys in the listing's order. */
  predicate After(k: Addr, r: seq<Addr>, descending: bool) {
    forall i :: 0 <= i < |r| ==> if descending then LexLess(k, r[i]) else LexLess(r[i], k)
  }

  /** The first `size` keys of `keys` in ascending order. */
  function AscendingPage(keys: set<Addr>, size: nat): (r: seq<Addr>)
    ensures |r| == if size < |keys| then size else |keys|
    ensures forall i :: 0 <= i < |r| ==> r[i] in keys
    ensures StrictlyAscending(r, LexLess)
    ensures forall k :: k in keys && k !in r ==> After(k, r, false)
  {
    var all := LexAscending(keys);
    var n := if size < |all| then size else |all|;
    AscendingPrefix(all, n, LexLess);
    all[..n]
  }

  /** The first `size` keys of `keys` in descending order. */
  function DescendingPage(keys: set<Addr>, size: nat): (r: seq<Addr>)
    ensures |r| == if size < |keys| then size else |keys|
    ensures forall i :: 0 <= i < |r| ==> r[i] in keys
    ensures StrictlyDescending(r, LexLess)
    ensures forall k :: k in keys && k !in r ==> After(k, r, true)
  {
    var all := LexDescending(keys);
    var n := if size < |all| then size else |all|;
    DescendingPrefix(all, n, LexLess);
    all[..n]
  }

  /** A range query followed by `take(size)`. The page is as long as it
      can be, ordered, drawn from `keys`, and every key left out comes
      after every key on the page in the listing's order. */
  function Page(keys: set<Addr>, size: nat, descending: bool): (r: seq<Addr>)
    ensures |r| == if size < |keys| then size else |keys|
    ensures forall i :: 0 <= i < |r| ==> r[i] in keys
    ensures if descending then StrictlyDescending(r, LexLess) else StrictlyAscending(r, LexLess)
    ensures forall k :: k in keys && k !in r ==> After(k, r, descending)
  {
    if descending then DescendingPage(keys, size) else AscendingPage(keys, size)
  }

  /** The records on a page, in page order. */
  function RecordsOf(contracts: map<Addr, ContractRecord>, keys: seq<Addr>): (r: seq<ContractRecord>)
    requires forall i :: 0 <= i < |keys| ==> keys[i] in contracts
    ensures |r| == |keys|
    ensures forall i :: 0 <= i < |keys| ==> r[i] == contracts[keys[i]]
  {
    seq(|keys|, i requires 0 <= i < |keys| => contracts[keys[i]])
  }

  /** The contract addresses of a list of records. */
  function ContractsOf(r: seq<ContractRecord>): (cs: seq<Addr>)
    ensures |cs| == |r|
    ensures forall i :: 0 <= i < |r| ==> cs[i] == r[i].contract
  {
    seq(|r|, i requires 0 <= i < |r| => r[i].contract)
  }

  /** When every record sits under its own address, the records of a list
      of addresses name those addresses again. */
  lemma KeyedRecords(contracts: map<Addr, ContractRecord>, keys: seq<Addr>)
    requires forall i :: 0 <= i < |keys| ==> keys[i] in contracts
    ensures Keyed(contracts) ==> ContractsOf(RecordsOf(contracts, keys)) == keys
  {
  }

  function Min(a: nat, b: nat): nat {
    if a < b then a else b
  }

  /** The records of the keys of `keys` strictly between the bounds, a page
      of at most `size`. When every record sits under its own address (as
      `Reply` keeps it), the page lists addresses from the window only, in
      the listing's order, and any address of the window it leaves out
      comes after all of those it lists. */
  function Listing(contracts: map<Addr, ContractRecord>, keys: set<Addr>, after: Option<Addr>, before: Option<Addr>,
                   size: nat, descending: bool): (r: seq<ContractRecord>)
    requires keys <= contracts.Keys
    ensures |r| == Min(size, |Window(keys, after, before)|)
    ensures forall i :: 0 <= i < |r| ==> r[i] in contracts.Values
    ensures Keyed(contracts) ==> forall i :: 0 <= i < |r| ==> r[i].contract in Window(keys, after, before)
    ensures Keyed(contracts) ==>
              if descending then StrictlyDescending(ContractsOf(r), LexLess) else StrictlyAscending(ContractsOf(r), LexLess)
    ensures Keyed(contracts) ==>
              forall a :: a in Window(keys, after, before) && a !in ContractsOf(r) ==> After(a, ContractsOf(r), descending)
  {
    var p := Page(Window(keys, after, before), size, descending);
    KeyedRecords(contracts, p);
    RecordsOf(contracts, p)
  }

  /** The addresses of one instantiator's contracts: the instantiator
      index's prefix. */
  function InstantiatedBy(contracts: map<Addr, ContractRecord>, instantiator: Addr): (ks: set<Addr>)
    ensures forall a :: a in ks <==> a in contracts && contracts[a].instantiator == instantiator
  {
    set a | a in contracts && contracts[a].instantiator == instantiator
  }

  /** `ListAvEventContracts`: ascending, strictly after `startAfter`. */
  function ListContracts(s: FactoryState, startAfter: Option<Addr>, limit: Option<nat>): (r: seq<ContractRecord>)
    ensures |r| <= PageSize(limit)
    ensures |r| == Min(PageSize(limit), |Window(s.contracts.Keys, startAfter, None)|)
    ensures forall i :: 0 <= i < |r| ==> r[i] in s.contracts.Values
    ensures KeyedByContract(s) ==> forall i :: 0 <= i < |r| ==>
              r[i].contract in s.contracts && (startAfter.Some? ==> LexLess(startAfter.value, r[i].contract))
    ensures KeyedByContract(s) ==> StrictlyAscending(ContractsOf(r), LexLess)
    ensures KeyedByContract(s) ==> forall a ::
              (a in s.contracts && (startAfter.None? || LexLess(startAfter.value, a)) && a !in ContractsOf(r))
              ==> After(a, ContractsOf(r), false)
  {
    Listing(s.contracts, s.contracts.Keys, startAfter, None, PageSize(limit), false)
  }

  /** `ListAvEventContractsReverse`: descending, strictly before
      `startBefore`. */
  function ListContractsReverse(s: FactoryState, startBefore: Option<Addr>, limit: Option<nat>): (r: seq<ContractRecord>)
    ensures |r| <= PageSize(limit)
    ensures |r| == Min(PageSize(limit), |Window(s.contracts.Keys, None, startBefore)|)
    ensures forall i :: 0 <= i < |r| ==> r[i] in s.contracts.Values
    ensures KeyedByContract(s) ==> forall i :: 0 <= i < |r| ==>
              r[i].contract in s.contracts && (startBefore.Some? ==> LexLess(r[i].contract, startBefore.value))
    ensures KeyedByContract(s) ==> StrictlyDescending(ContractsOf(r), LexLess)
    ensures KeyedByContract(s) ==> forall a ::
              (a in s.contracts && (startBefore.None? || LexLess(a, startBefore.value)) && a !in ContractsOf(r))
              ==> After(a, ContractsOf(r), true)
  {
    Listing(s.contracts, s.contracts.Keys, None, startBefore, PageSize(limit), true)
  }

  /** `ListAvEventContractsByInstantiator`: `addressValid` is the outcome
      of validating the instantiator address. The page holds only that
      instantiator's records, ascending, strictly after `startAfter`. */
  function ListContractsByInstantiator(s: FactoryState, instantiator: Addr, addressValid: bool,
                                       startAfter: Option<Addr>, limit: Option<nat>): (r: Result<seq<ContractRecord>, FactoryError>)
    ensures r.Ok? <==> addressValid
    ensures r.Err? ==> r.error == InvalidAddress
    ensures r.Ok? ==> |r.value| == Min(PageSize(limit), |Window(InstantiatedBy(s.contracts, instantiator), startAfter, None)|)
    ensures r.Ok? ==> forall i :: 0 <= i < |r.value| ==> r.value[i] in s.contracts.Values && r.value[i].instantiator == instantiator
    ensures r.Ok? && KeyedByContract(s) ==> forall i :: 0 <= i < |r.value| ==>
              r.value[i].contract in s.contracts && (startAfter.Some? ==> LexLess(startAfter.value, r.value[i].contract))
    ensures r.Ok? && KeyedByContract(s) ==> StrictlyAscending(ContractsOf(r.value), LexLess)
    ensures r.Ok? && KeyedByContract(s) ==>
              forall a ::
                (a in s.contracts && s.contracts[a].instantiator == instantiator
                 && (startAfter.None? || LexLess(startAfter.value, a)) && a !in ContractsOf(r.value))
                ==> After(a, ContractsOf(r.value), false)
  {
    if !addressValid then Err(InvalidAddress)
    else
      var r := Listing(s.contracts, InstantiatedBy(s.contracts, instantiator), startAfter, None, PageSize(limit), false);
      assert forall i :: 0 <= i < |r| ==> r[i].instantiator == instantiator by {
        var p := Page(Window(InstantiatedBy(s.contracts, instantiator), startAfter, None), PageSize(limit), false);
        assert r == RecordsOf(s.contracts, p);
      }
      Ok(r)
  }

  /** `ListAvEventContractsByInstantiatorReverse`: as above, descending,
      strictly before `startBefore`. */
  function ListContractsByInstantiatorReverse(s: FactoryState, instantiator: Addr, addressValid: bool,
                                              startBefore: Option<Addr>, limit: Option<nat>): (r: Result<seq<ContractRecord>, FactoryError>)
    ensures r.Ok? <==> addressValid
    ensures r.Err? ==> r.error == InvalidAddress
    ensures r.Ok? ==> |r.value| == Min(PageSize(limit), |Window(InstantiatedBy(s.contracts, instantiator), None, startBefore)|)
    ensures r.Ok? ==> forall i :: 0 <= i < |r.value| ==> r.value[i] in s.contracts.Values && r.value[i].instantiator == instantiator
    ensures r.Ok? && KeyedByContract(s) ==> forall i :: 0 <= i < |r.value| ==>
              r.value[i].contract in s.contracts && (startBefore.Some? ==> LexLess(r.value[i].contract, startBefore.value))
    ensures r.Ok? && KeyedByContract(s) ==> StrictlyDescending(ContractsOf(r.value), LexLess)
    ensures r.Ok? && KeyedByContract(s) ==>
              forall a ::
                (a in s.contracts && s.contracts[a].instantiator == instantiator
                 && (startBefore.None? || LexLess(a, startBefore.value)) && a !in ContractsOf(r.value))
                ==> After(a, ContractsOf(r.value), true)
  {
    if !addressValid then Err(InvalidAddress)
    else
      var r := Listing(s.contracts, InstantiatedBy(s.contracts, instantiator), None, startBefore, PageSize(limit), true);
      assert forall i :: 0 <= i < |r| ==> r[i].instantiator == instantiator by {
        var p := Page(Window(InstantiatedBy(s.contracts, instantiator), None, startBefore), PageSize(limit), true);
        assert r == RecordsOf(s.contracts, p);
      }
      Ok(r)
  }

  /** Over three keys `a < b < c`, a page of one after `a` is the record
      under `b`. */
  lemma {:induction false} PageOfOneAfterLeast(s: FactoryState, a: Addr, b: Addr, c: Addr)
    requires KeyedByContract(s) && s.contracts.Keys == {a, b, c}
    requires LexLess(a, b) && LexLess(b, c) && LexLess(a, c)
    requires !LexLess(a, a) && !LexLess(b, a) && !LexLess(c, a) && !LexLess(c, b)
    ensures ListContracts(s, Some(a), Some(1)) == [s.contracts[b]]
  {
    var w := Window(s.contracts.Keys, Some(a), None);
    assert w == {b, c};
    assert b != c;
    assert |w| == 2;
    var r := ListContracts(s, Some(a), Some(1));
    assert |r| == 1;
    var cs := ContractsOf(r);
    assert cs[0] == r[0].contract;
    assert r[0].contract in s.contracts && LexLess(a, r[0].contract);
    assert b !in cs ==> After(b, cs, false);
    FirstOfSingletonPage(cs, b, c);
  }

  /** A one-key page drawn from `b` and `c`, with `b` not after `c` and
      listed whenever no key of the page precedes it, holds `b`. */
  lemma FirstOfSingletonPage(cs: seq<Addr>, b: Addr, c: Addr)
    requires |cs| == 1 && (cs[0] == b || cs[0] == c)
    requires !LexLess(c, b)
    requires b !in cs ==> After(b, cs, false)
    ensures cs[0] == b
  {
  }

  /** A page of one after "a" over the addresses "a", "b", "c" is the
      record of "b". */
  lemma PageAfterFirst(s: FactoryState)
    requires s.contracts == map["a" := ContractRecord("a", "alice"), "b" := ContractRecord("b", "bob"),
                                "c" := ContractRecord("c", "alice")]
    ensures ListContracts(s, Some("a"), Some(1)) == [ContractRecord("b", "bob")]
  {
    assert KeyedByContract(s);
    assert s.contracts.Keys == {"a", "b", "c"};
    assert !LexLess("a", "a") by { LexLessIrreflexive("a"); }
    assert LexLess("a", "b") && LexLess("b", "c") && LexLess("a", "c");
    assert !LexLess("b", "a") && !LexLess("c", "a") && !LexLess("c", "b");
    PageOfOneAfterLeast(s, "a", "b", "c");
  }
}

=== FILE: license.dfy ===
/** The per-chain lookup tables of the event helpers package: the license
    fee charged on each supported chain and the license address that
    receives settlement fees. */
module License {
  import opened Wrappers
  import opened Coins

  datatype LicenseError = NoLicenseFee | NoLicenseAddr

  const JUNO: string := "juno-1"
  const BITSONG: string := "bitsong-2b"

  const JUNO_FEE: nat := 1_000_000
  const STANDARD_FEE: nat := 420_000_000

  /** Every chain with a license fee, and the fee denomination there. */
  const FeeDenoms: map<string, Denom> := map[
    "bitsong-2b" := "ubtsg",
    "juno-1" := "ujuno",
    "cosmoshub-4" := "uatom",
    "neutron-1" := "untrn",
    "archway-1" := "aarch",
    "bitcanna-1" := "ubcna",
    "chihuahua-1" := "uhuahua",
    "omniflixhub-1" := "uflix",
    "secret-4" := "uscrt",
    "migaloo-1" := "uwhale",
    "columbus-5" := "uluna",
    "phoenix-1" := "uluna",
    "kaiyo-1" := "ukuji",
    "luwak-1" := "ukopi",
    "aaronetwork" := "uaaron",
    "acre_9052-1" := "aacre"
  ]

  /** License fee of a chain: a discounted fee on Juno, the standard fee in
      the chain's own denomination on every other listed chain, and an
      error on any chain not listed. */
  function LicenseFee(chainId: string): (r: Result<Coin, LicenseError>)
    ensures r.Ok? <==> chainId in FeeDenoms
    ensures r.Ok? && chainId == JUNO ==> r.value.amount == JUNO_FEE
    ensures r.Ok? && chainId != JUNO ==> r.value.amount == STANDARD_FEE
    ensures r.Err? ==> r.error == NoLicenseFee
  {
    if chainId == "bitsong-2b" then Ok(Coin("ubtsg", 420_000_000))
    else if chainId == "juno-1" then Ok(Coin("ujuno", 1_000_000))
    else if chainId == "cosmoshub-4" then Ok(Coin("uatom", 420_000_000))
    else if chainId == "neutron-1" then Ok(Coin("untrn", 420_000_000))
    else if chainId == "archway-1" then Ok(Coin("aarch", 420_000_000))
    else if chainId == "bitcanna-1" then Ok(Coin("ubcna", 420_000_000))
    else if chainId == "chihuahua-1" then Ok(Coin("uhuahua", 420_000_000))
    else if chainId == "omniflixhub-1" then Ok(Coin("uflix", 420_000_000))
    else if chainId == "secret-4" then Ok(Coin("uscrt", 420_000_000))
    else if chainId == "migaloo-1" then Ok(Coin("uwhale", 420_000_000))
    else if chainId == "columbus-5" then Ok(Coin("uluna", 420_000_000))
    else if chainId == "phoenix-1" then Ok(Coin("uluna", 420_000_000))
    else if chainId == "kaiyo-1" then Ok(Coin("ukuji", 420_000_000))
    else if chainId == "luwak-1" then Ok(Coin("ukopi", 420_000_000))
    else if chainId == "aaronetwork" then Ok(Coin("uaaron", 420_000_000))
    else if chainId == "acre_9052-1" then Ok(Coin("aacre", 420_000_000))
    else Err(NoLicenseFee)
  }

  /** The fee is charged in the chain's own denomination. */
  lemma LicenseFeeDenom(chainId: string)
    requires chainId in FeeDenoms
    ensures LicenseFee(chainId) == Ok(Coin(FeeDenoms[chainId], if chainId == JUNO then JUNO_FEE else STANDARD_FEE))
  {
  }

  const JUNO_LICENSE_ADDR: string := "juno1tzz4sp3y8l5lf76qy0ydzjwlntcu8zg7t63p68"
  const BITSONG_LICENSE_ADDR: string := "bitsong1schul8k23ryty6ar324mzee0axjx0rxec5t6hk"

  /** License address of a chain: defined only on Juno and Bitsong. */
  function LicenseAddr(chainId: string): (r: Result<string, LicenseError>)
    ensures r.Ok? <==> chainId == JUNO || chainId == BITSONG
    ensures chainId == JUNO ==> r == Ok(JUNO_LICENSE_ADDR)
    ensures chainId == BITSONG ==> r == Ok(BITSONG_LICENSE_ADDR)
    ensures r.Err? ==> r.error == NoLicenseAddr
  {
    if chainId == "juno-1" then Ok("juno1tzz4sp3y8l5lf76qy0ydzjwlntcu8zg7t63p68")
    else if chainId == "bitsong-2b" then Ok("bitsong1schul8k23ryty6ar324mzee0axjx0rxec5t6hk")
    else Err(NoLicenseAddr)
  }

  /** Every chain with a license address also has a license fee. */
  lemma LicensedChainsHaveFee(chainId: string)
    requires LicenseAddr(chainId).Ok?
    ensures LicenseFee(chainId).Ok?
  {
  }
}

=== FILE: ordering.dfy ===
/** Key order of the key-value store. The store iterates a table's keys in
    ascending order of their encoding: numeric order for `u64` keys and
    lexicographic order for string keys. `Ascending` lists a finite key set
    in the order a range query visits it. */
module Ordering {

  ghost predicate StrictTotalOrder<K(!new)>(less: (K, K) -> bool) {
    && (forall a :: !less(a, a))
    && (forall a, b, c :: less(a, b) && less(b, c) ==> less(a, c))
    && (forall a, b :: a != b ==> less(a, b) || less(b, a))
  }

  predicate StrictlyAscending<K>(s: seq<K>, less: (K, K) -> bool) {
    forall i, j :: 0 <= i < j < |s| ==> less(s[i], s[j])
  }

  predicate IsLeast<K(==)>(m: K, s: set<K>, less: (K, K) -> bool) {
    m in s && forall y :: y in s && y != m ==> less(m, y)
  }

  lemma {:induction false} LeastExists<K(!new)>(s: set<K>, less: (K, K) -> bool)
    requires StrictTotalOrder(less)
    requires s != {}
    ensures exists m :: IsLeast(m, s, less)
  {
    var x :| x in s;
    if s == {x} {
      assert IsLeast(x, s, less);
    } else {
      LeastExists(s - {x}, less);
      var m :| IsLeast(m, s - {x}, less);
      if less(x, m) {
        forall y | y in s && y != x ensures less(x, y) {
          if y != m {
            assert less(m, y);
          }
        }
        assert IsLeast(x, s, less);
      } else {
        assert IsLeast(m, s, less);
      }
    }
  }

  /** The least key of a non-empty key set. */
  function Least<K(!new)>(s: set<K>, less: (K, K) -> bool): (m: K)
    requires StrictTotalOrder(less)
    requires s != {}
    ensures m in s
    ensures forall y :: y in s && y != m ==> less(m, y)
  {
    LeastExists(s, less);
    var m :| IsLeast(m, s, less);
    m
  }

  /** The keys of `s`, each once, in strictly ascending order. */
  function Ascending<K(!new)>(s: set<K>, less: (K, K) -> bool): (r: seq<K>)
    requires StrictTotalOrder(less)
    ensures |r| == |s|
    ensures forall k :: k in r <==> k in s
    ensures StrictlyAscending(r, less)
    decreases |s|
  {
    if s == {} then []
    else
      var m := Least(s, less);
      [m] + Ascending(s - {m}, less)
  }

  /** The reverse of a sequence: a descending range query visits keys in
      the reverse of `Ascending`. */
  function Reverse<K>(s: seq<K>): (r: seq<K>)
    ensures |r| == |s|
    ensures forall i :: 0 <= i < |s| ==> r[i] == s[|s| - 1 - i]
  {
    if s == [] then [] else Reverse(s[1..]) + [s[0]]
  }

  predicate StrictlyDescending<K>(s: seq<K>, less: (K, K) -> bool) {
    forall i, j :: 0 <= i < j < |s| ==> less(s[j], s[i])
  }

  lemma ReverseDescends<K>(up: seq<K>, less: (K, K) -> bool)
    requires StrictlyAscending(up, less)
    ensures StrictlyDescending(Reverse(up), less)
    ensures forall k :: k in Reverse(up) <==> k in up
  {
    var r := Reverse(up);
    forall i, j | 0 <= i < j < |r| ensures less(r[j], r[i]) {
      assert r[j] == up[|up| - 1 - j] && r[i] == up[|up| - 1 - i];
    }
    forall k | k in up ensures k in r {
      var i :| 0 <= i < |up| && up[i] == k;
      assert r[|up| - 1 - i] == k;
    }
  }

  /** The keys of `s`, each once, in strictly descending order: the order a
      descending range query visits them. */
  function Descending<K(!new)>(s: set<K>, less: (K, K) -> bool): (r: seq<K>)
    requires StrictTotalOrder(less)
    ensures |r| == |s|
    ensures forall k :: k in r <==> k in s
    ensures StrictlyDescending(r, less)
  {
    var up := Ascending(s, less);
    ReverseDescends(up, less);
    Reverse(up)
  }

  lemma PrefixDescends<K>(all: seq<K>, n: nat, less: (K, K) -> bool)
    requires StrictlyDescending(all, less)
    requires n <= |all|
    ensures StrictlyDescending(all[..n], less)
  {
    forall i, j | 0 <= i < j < n ensures less(all[..n][j], all[..n][i]) {
      assert all[..n][j] == all[j] && all[..n][i] == all[i];
    }
  }

  /** The first `n` keys of a descending sequence: still descending, drawn
      from it, and every key left out comes before each of them. */
  lemma DescendingPrefix<K>(all: seq<K>, n: nat, less: (K, K) -> bool)
    requires StrictlyDescending(all, less)
    requires n <= |all|
    ensures StrictlyDescending(all[..n], less)
    ensures forall i :: 0 <= i < n ==> all[..n][i] in all
    ensures forall k, i :: k in all && k !in all[..n] && 0 <= i < n ==> less(k, all[..n][i])
  {
    PrefixDescends(all, n, less);
    forall k, i | k in all && k !in all[..n] && 0 <= i < n ensures less(k, all[..n][i]) {
      BeforeDescendingPrefix(all, n, k, less);
    }
  }

  /** The first `n` keys of an ascending sequence: still ascending, drawn
      from it, and every key left out comes after each of them. */
  lemma AscendingPrefix<K>(all: seq<K>, n: nat, less: (K, K) -> bool)
    requires StrictlyAscending(all, less)
    requires n <= |all|
    ensures StrictlyAscending(all[..n], less)
    ensures forall i :: 0 <= i < n ==> all[..n][i] in all
    ensures forall k, i :: k in all && k !in all[..n] && 0 <= i < n ==> less(all[..n][i], k)
  {
    forall k, i | k in all && k !in all[..n] && 0 <= i < n ensures less(all[..n][i], k) {
      AfterAscendingPrefix(all, n, k, less);
    }
  }

  /** A key of an ascending sequence missing from its first `n` entries
      comes after each of them. */
  lemma AfterAscendingPrefix<K>(all: seq<K>, n: nat, k: K, less: (K, K) -> bool)
    requires StrictlyAscending(all, less)
    requires n <= |all| && k in all && k !in all[..n]
    ensures forall i :: 0 <= i < n ==> less(all[i], k)
  {
  }

  /** A key of a descending sequence missing from its first `n` entries
      comes before each of them. */
  lemma BeforeDescendingPrefix<K>(all: seq<K>, n: nat, k: K, less: (K, K) -> bool)
    requires StrictlyDescending(all, less)
    requires n <= |all| && k in all && k !in all[..n]
    ensures forall i :: 0 <= i < n ==> less(k, all[i])
  {
  }

  function NatLess(a: nat, b: nat): bool {
    a < b
  }

  lemma NatLessIsStrictTotal()
    ensures StrictTotalOrder(NatLess)
  {
  }

  /** Lexicographic order on strings, the order of their UTF-8 encodings. */
  predicate LexLess(a: string, b: string)
    decreases |a|
  {
    if |a| == 0 then |b| > 0
    else if |b| == 0 then false
    else if a[0] < b[0] then true
    else a[0] == b[0] && LexLess(a[1..], b[1..])
  }

  lemma {:induction false} LexLessIrreflexive(a: string)
    ensures !LexLess(a, a)
    decreases |a|
  {
    if |a| > 0 {
      LexLessIrreflexive(a[1..]);
    }
  }

  lemma {:induction false} LexLessTransitive(a: string, b: string, c: string)
    requires LexLess(a, b) && LexLess(b, c)
    ensures LexLess(a, c)
    decreases |a|
  {
    if |a| > 0 && a[0] == b[0] && b[0] == c[0] {
      LexLessTransitive(a[1..], b[1..], c[1..]);
    }
  }

  lemma {:induction false} LexLessTotal(a: string, b: string)
    requires a != b
    ensures LexLess(a, b) || LexLess(b, a)
    decreases |a|
  {
    if |a| > 0 && |b| > 0 && a[0] == b[0] {
      assert a == [a[0]] + a[1..] && b == [b[0]] + b[1..];
      LexLessTotal(a[1..], b[1..]);
    }
  }

  lemma LexLessIsStrictTotal()
    ensures StrictTotalOrder(LexLess)
  {
    forall a | true ensures !LexLess(a, a) {
      LexLessIrreflexive(a);
    }
    forall a, b, c | LexLess(a, b) && LexLess(b, c) ensures LexLess(a, c) {
      LexLessTransitive(a, b, c);
    }
    forall a, b | a != b ensures LexLess(a, b) || LexLess(b, a) {
      LexLessTotal(a, b);
    }
  }

  /** Numeric keys in the order of an ascending range query. */
  function NatAscending(keys: set<nat>): (r: seq<nat>)
    ensures |r| == |keys|
    ensures forall k :: k in r <==> k in keys
    ensures StrictlyAscending(r, NatLess)
  {
    NatLessIsStrictTotal();
    Ascending(keys, NatLess)
  }

  /** String keys in the order of an ascending range query. */
  function LexAscending(keys: set<string>): (r: seq<string>)
    ensures |r| == |keys|
    ensures forall k :: k in r <==> k in keys
    ensures StrictlyAscending(r, LexLess)
  {
    LexLessIsStrictTotal();
    Ascending(keys, LexLess)
  }

  /** String keys in the order of a descending range query. */
  function LexDescending(keys: set<string>): (r: seq<string>)
    ensures |r| == |keys|
    ensures forall k :: k in r <==> k in keys
    ensures StrictlyDescending(r, LexLess)
  {
    LexLessIsStrictTotal();
    Descending(keys, LexLess)
  }
}

=== FILE: payments.dfy ===
/** The curator's claim of ticket payments: the distinct cost denoms of all
    tiers are collected, in ascending tier-weight order and each at its
    first occurrence, and the contract's balance of each is paid out. */
module Payments {
  import opened Wrappers
  import opened Coins
  import opened EventTypes
  import opened Ordering
  import Delegation

  /** The denoms of a cost list, in order. */
  function DenomsOf(cost: seq<Coin>): (r: seq<Denom>)
    ensures |r| == |cost|
    ensures forall i :: 0 <= i < |cost| ==> r[i] == cost[i].denom
  {
    seq(|cost|, i requires 0 <= i < |cost| => cost[i].denom)
  }

  /** The cost denoms of a list of tiers, tier after tier. */
  function Flatten(ts: seq<Tier>): (r: seq<Denom>)
    ensures forall d :: d in r <==> exists i :: 0 <= i < |ts| && d in DenomsOf(ts[i].cost)
  {
    if ts == [] then []
    else
      assert forall i :: 1 <= i < |ts| ==> ts[i] == ts[1..][i - 1];
      DenomsOf(ts[0].cost) + Flatten(ts[1..])
  }

  /** The left fold that keeps each denom at its first occurrence. */
  function Dedup(ds: seq<Denom>): (r: seq<Denom>)
    ensures Delegation.NoDuplicates(r)
    ensures forall d :: d in r <==> d in ds
  {
    if ds == [] then []
    else
      var prev := Dedup(ds[..|ds| - 1]);
      var d := ds[|ds| - 1];
      assert ds == ds[..|ds| - 1] + [d];
      if d in prev then prev else prev + [d]
  }

  /** Positions in a prefix agree with positions in the whole sequence. */
  lemma IndexOfPrefix(ds: seq<Denom>, n: nat, x: Denom)
    requires n <= |ds|
    requires x in ds[..n]
    ensures Delegation.IndexOf(ds, x) == Delegation.IndexOf(ds[..n], x) < n
  {
  }

  /** `r` lists denoms of `ds` in the order of their first occurrence there. */
  predicate FirstSeenOrder(ds: seq<Denom>, r: seq<Denom>) {
    forall i, j :: 0 <= i < j < |r| ==>
      r[i] in ds && r[j] in ds && Delegation.IndexOf(ds, r[i]) < Delegation.IndexOf(ds, r[j])
  }

  /** Appending to `ds` keeps the first-occurrence order of a list drawn
      from it, and a new denom appended to both comes last. */
  lemma FirstSeenOrderExtends(front: seq<Denom>, d: Denom, prev: seq<Denom>)
    requires FirstSeenOrder(front, prev)
    requires forall x :: x in prev ==> x in front
    ensures FirstSeenOrder(front + [d], prev)
    ensures d !in front ==> FirstSeenOrder(front + [d], prev + [d])
  {
    var ds := front + [d];
    assert ds[..|front|] == front;
    forall x | x in front
      ensures x in ds && Delegation.IndexOf(ds, x) == Delegation.IndexOf(front, x) < |front|
    {
      IndexOfPrefix(ds, |front|, x);
    }
    if d !in front {
      assert Delegation.IndexOf(ds, d) == |front|;
      var r := prev + [d];
      forall i, j | 0 <= i < j < |r|
        ensures r[i] in ds && r[j] in ds && Delegation.IndexOf(ds, r[i]) < Delegation.IndexOf(ds, r[j])
      {
        assert r[i] == prev[i] && prev[i] in prev;
        if j < |prev| {
          assert r[j] == prev[j] && prev[j] in prev;
        }
      }
    }
  }

  /** `Dedup` lists the denoms in the order of their first occurrence. */
  lemma {:induction false} DedupOrder(ds: seq<Denom>)
    ensures FirstSeenOrder(ds, Dedup(ds))
  {
    if ds != [] {
      var n := |ds| - 1;
      var front := ds[..n];
      DedupOrder(front);
      assert ds == front + [ds[n]];
      FirstSeenOrderExtends(front, ds[n], Dedup(front));
    }
  }

  /** The tiers in ascending weight order, the order of a range over the
      tier table. */
  function TiersByWeight(tiers: map<nat, Tier>): (r: seq<Tier>)
    ensures var ks := NatAscending(tiers.Keys);
            |r| == |ks| && forall i :: 0 <= i < |ks| ==> ks[i] in tiers && r[i] == tiers[ks[i]]
  {
    var ks := NatAscending(tiers.Keys);
    assert forall i :: 0 <= i < |ks| ==> ks[i] in tiers by {
      forall i | 0 <= i < |ks| ensures ks[i] in tiers {
        assert ks[i] in ks;
      }
    }
    seq(|ks|, i requires 0 <= i < |ks| => tiers[ks[i]])
  }

  /** A denom some tier prices tickets in. */
  ghost predicate IsCostDenom(tiers: map<nat, Tier>, d: Denom) {
    exists w, k :: w in tiers && 0 <= k < |tiers[w].cost| && tiers[w].cost[k].denom == d
  }

  /** The denoms the claim pays out, each once. */
  function TicketDenoms(tiers: map<nat, Tier>): (r: seq<Denom>)
    ensures Delegation.NoDuplicates(r)
    ensures forall d :: d in r <==> IsCostDenom(tiers, d)
  {
    var ks := NatAscending(tiers.Keys);
    var ts := TiersByWeight(tiers);
    var r := Dedup(Flatten(ts));
    forall d ensures d in r <==> IsCostDenom(tiers, d) {
      if d in r {
        var i :| 0 <= i < |ts| && d in DenomsOf(ts[i].cost);
        var w := ks[i];
        var k :| 0 <= k < |ts[i].cost| && DenomsOf(ts[i].cost)[k] == d;
        assert tiers[w].cost[k].denom == d;
      }
      if IsCostDenom(tiers, d) {
        var w, k :| w in tiers && 0 <= k < |tiers[w].cost| && tiers[w].cost[k].denom == d;
        assert w in ks;
        var i :| 0 <= i < |ks| && ks[i] == w;
        assert DenomsOf(ts[i].cost)[k] == d;
      }
    }
    r
  }

  /** The balance of each denom, in order; a denom the contract holds none
      of is paid as 0. */
  function Payout(ds: seq<Denom>, balance: map<Denom, nat>): (r: seq<Coin>)
    ensures |r| == |ds|
    ensures forall i :: 0 <= i < |ds| ==> r[i].denom == ds[i]
    ensures forall i :: 0 <= i < |ds| ==> r[i].amount == (if ds[i] in balance then balance[ds[i]] else 0)
  {
    seq(|ds|, i requires 0 <= i < |ds| => Coin(ds[i], if ds[i] in balance then balance[ds[i]] else 0))
  }

  /** `perform_claim_ticket_payments`. Only the curator may claim; the
      payout holds, for each distinct cost denom, the contract's balance in
      it (`balance`, with 0 for a denom it holds none of). The tables are
      left as they were. */
  function ClaimTicketPayments(s: EventState, sender: Addr, balance: map<Denom, nat>): (r: Result<seq<Coin>, Error>)
    ensures r.Ok? <==> sender == s.config.curator
    ensures r.Err? ==> r.error == NotAnEventUsher
    ensures r.Ok? ==> DistinctDenoms(r.value)
    ensures r.Ok? ==> forall d :: (exists i :: 0 <= i < |r.value| && r.value[i].denom == d) <==> IsCostDenom(s.tiers, d)
    ensures r.Ok? ==> forall i :: 0 <= i < |r.value| ==>
                        r.value[i].amount == (if r.value[i].denom in balance then balance[r.value[i].denom] else 0)
  {
    if sender != s.config.curator then Err(NotAnEventUsher)
    else
      Ok(Payout(TicketDenoms(s.tiers), balance))
  }

  /** The payout lists denoms in the order a range over the tier table
      first meets them: tiers by ascending weight, each tier's cost list in
      order. */
  lemma {:induction false} PayoutInTierOrder(s: EventState, sender: Addr, balance: map<Denom, nat>)
    requires ClaimTicketPayments(s, sender, balance).Ok?
    ensures FirstSeenOrder(Flatten(TiersByWeight(s.tiers)), DenomsOf(ClaimTicketPayments(s, sender, balance).value))
  {
    var flat := Flatten(TiersByWeight(s.tiers));
    DedupOrder(flat);
    assert DenomsOf(ClaimTicketPayments(s, sender, balance).value) == Dedup(flat);
  }
}

=== FILE: reservation.dfy ===
/** Ticket purchase. Each tier group of a purchase admits a prefix of its
    requested tickets (as many as the tier's total limit leaves room for),
    settles the admitted tickets against the funds sent, updates the tier's
    reservation counter against the per-wallet limit, and records the
    tickets bought for other wallets in the buyer's delegation list. */
module Reservation {
  import opened Wrappers
  import opened Coins
  import opened EventTypes
  import opened Settlement
  import opened Delegation
  import Setup

  /** Subtraction that stops at zero. */
  function SatSub(a: nat, b: nat): (r: nat)
    ensures r + b >= a && r <= a
    ensures a >= b ==> r + b == a
    ensures a < b ==> r == 0
  {
    if a >= b then a - b else 0
  }

  /** How many of the requested tickets a tier group admits: the smaller
      of the number requested and the room left under the total limit. */
  function AdmitCount(requested: nat, totalLimit: nat, count: nat): (n: nat)
    ensures n <= requested && n <= SatSub(totalLimit, count)
    ensures n == requested || n == SatSub(totalLimit, count)
  {
    if requested <= SatSub(totalLimit, count) then requested else SatSub(totalLimit, count)
  }

  /** The reservation counter update of a tier. The first reservation for
      the tier stores the number of tickets settled, if it is within the
      per-wallet limit; a later one adds the number of tickets requested
      (admitted or not) and fails if that passes the limit. */
  function UpdateReserved(reserved: map<nat, nat>, tier: Tier, requested: nat, settled: nat)
    : (r: Result<map<nat, nat>, Error>)
    ensures tier.weight !in reserved ==> (r.Ok? <==> settled <= tier.maxPerWallet)
    ensures tier.weight in reserved ==> (r.Ok? <==> reserved[tier.weight] + requested <= tier.maxPerWallet)
    ensures r.Ok? ==> r.value.Keys == reserved.Keys + {tier.weight}
    ensures r.Ok? ==> r.value[tier.weight] <= tier.maxPerWallet
    ensures r.Ok? && tier.weight !in reserved ==> r.value == reserved[tier.weight := settled]
    ensures r.Ok? && tier.weight in reserved
            ==> r.value == reserved[tier.weight := reserved[tier.weight] + requested]
    ensures r.Err? ==> r.error == CannotReserveTicketCount
  {
    if tier.weight in reserved then
      var total := reserved[tier.weight] + requested;
      if total > tier.maxPerWallet then Err(CannotReserveTicketCount)
      else Ok(reserved[tier.weight := total])
    else if settled <= tier.maxPerWallet then Ok(reserved[tier.weight := settled])
    else Err(CannotReserveTicketCount)
  }

  /** The number of tickets of a group that settle, given the state. */
  function SettledCount(s: EventState, tier: Tier, funds: seq<Coin>, g: GuestGroup): (n: nat)
    requires tier.weight in s.totalReserved
    ensures n <= AdmitCount(|g.reap|, tier.totalLimit, s.totalReserved[tier.weight])
  {
    var admitted := AdmitCount(|g.reap|, tier.totalLimit, s.totalReserved[tier.weight]);
    CountTicketsAndRemainder(funds, tier.cost, g.reap[..admitted]).count
  }

  /** Entries past the room left under the total limit are never settled:
      two groups that agree on the first `room` entries settle the same
      number of tickets, whatever follows. */
  lemma OverflowNotSettled(s: EventState, tier: Tier, funds: seq<Coin>, g: GuestGroup, g2: GuestGroup)
    requires tier.weight in s.totalReserved
    requires var room := SatSub(tier.totalLimit, s.totalReserved[tier.weight]);
      room <= |g.reap| && room <= |g2.reap| && g.reap[..room] == g2.reap[..room]
    ensures SettledCount(s, tier, funds, g) == SettledCount(s, tier, funds, g2)
  {
  }

  /** One tier group of a purchase. An unknown tier, or a tier without a
      total counter, is an error. Otherwise the group succeeds exactly when
      the counter update and the delegation recording both do; the counter
      update runs first, so its error is the one reported. Only the
      reservation counters and the buyer's delegation list change. */
  function PurchaseGroup(s: EventState, buyer: Addr, funds: seq<Coin>, g: GuestGroup): (r: Result<EventState, Error>)
    ensures g.weight !in s.tiers ==> r == Err(NotFound)
    ensures g.weight in s.tiers && s.tiers[g.weight].weight !in s.totalReserved ==> r == Err(NotFound)
    ensures g.weight in s.tiers && s.tiers[g.weight].weight in s.totalReserved ==>
      var tier := s.tiers[g.weight];
      var u := UpdateReserved(s.reserved, tier, |g.reap|, SettledCount(s, tier, funds, g));
      var h := RecordDelegates(s.homies, buyer, g.reap);
      && (r.Ok? <==> u.Ok? && h.Ok?)
      && (u.Err? ==> r == Err(CannotReserveTicketCount))
      && (u.Ok? && h.Err? ==> r == Err(HomieTicketAlreadyRegistered))
    ensures r.Ok? ==> r.value == s.(reserved := r.value.reserved, homies := r.value.homies)
    ensures r.Ok? ==>
      var tier := s.tiers[g.weight];
      && tier.weight in s.totalReserved
      && UpdateReserved(s.reserved, tier, |g.reap|, SettledCount(s, tier, funds, g)) == Ok(r.value.reserved)
      && RecordDelegates(s.homies, buyer, g.reap) == Ok(r.value.homies)
  {
    if g.weight !in s.tiers then Err(NotFound)
    else
      var tier := s.tiers[g.weight];
      if tier.weight !in s.totalReserved then Err(NotFound)
      else
        var reserved :- UpdateReserved(s.reserved, tier, |g.reap|, SettledCount(s, tier, funds, g));
        var homies :- RecordDelegates(s.homies, buyer, g.reap);
        Ok(s.(reserved := reserved, homies := homies))
  }

  /** `perform_ticket_purchase`: the tier groups in order, each settled
      against the full funds sent with the call; any error fails the whole
      call, the first group's error first. A successful purchase names only
      known tiers, keeps every existing reservation counter and changes only
      reservation counters and delegation lists: in particular the tier
      total counters never move. */
  function Purchase(s: EventState, buyer: Addr, funds: seq<Coin>, groups: seq<GuestGroup>): (r: Result<EventState, Error>)
    ensures groups == [] ==> r == Ok(s)
    ensures groups != [] && PurchaseGroup(s, buyer, funds, groups[0]).Err?
            ==> r == PurchaseGroup(s, buyer, funds, groups[0])
    ensures r.Ok? ==> forall i :: 0 <= i < |groups| ==> groups[i].weight in s.tiers
    ensures r.Ok? ==> s.reserved.Keys <= r.value.reserved.Keys
    ensures r.Ok? ==> r.value == s.(reserved := r.value.reserved, homies := r.value.homies)
    decreases |groups|
  {
    if groups == [] then Ok(s)
    else
      var s1 :- PurchaseGroup(s, buyer, funds, groups[0]);
      Purchase(s1, buyer, funds, groups[1..])
  }

  /** A purchase of several batches is the purchases of the batches in turn. */
  lemma {:induction false} PurchaseConcat(s: EventState, buyer: Addr, funds: seq<Coin>, a: seq<GuestGroup>, b: seq<GuestGroup>)
    ensures Purchase(s, buyer, funds, a + b)
            == (match Purchase(s, buyer, funds, a)
                case Ok(s1) => Purchase(s1, buyer, funds, b)
                case Err(e) => Err(e))
    decreases |a|
  {
    if a == [] {
      assert a + b == b;
    } else {
      assert (a + b)[0] == a[0] && (a + b)[1..] == a[1..] + b;
      match PurchaseGroup(s, buyer, funds, a[0])
      case Err(_) =>
      case Ok(s1) => PurchaseConcat(s1, buyer, funds, a[1..], b);
    }
  }

  /** The groups run in turn: the first `i + 1` groups purchase as the
      first `i` followed by group `i`, and an error among the first `i`
      stops the call before group `i` runs. */
  lemma PurchaseInTurn(s: EventState, buyer: Addr, funds: seq<Coin>, groups: seq<GuestGroup>, i: nat)
    requires i < |groups|
    ensures Purchase(s, buyer, funds, groups[..i + 1])
            == (match Purchase(s, buyer, funds, groups[..i])
                case Ok(s1) => PurchaseGroup(s1, buyer, funds, groups[i])
                case Err(e) => Err(e))
  {
    assert groups[..i + 1] == groups[..i] + [groups[i]];
    PurchaseConcat(s, buyer, funds, groups[..i], [groups[i]]);
    assert [groups[i]][1..] == [];
  }

  /** A purchase naming an unknown tier fails, wherever that group is. */
  lemma {:induction false} UnknownTierFails(s: EventState, buyer: Addr, funds: seq<Coin>, groups: seq<GuestGroup>, i: nat)
    requires i < |groups| && groups[i].weight !in s.tiers
    ensures Purchase(s, buyer, funds, groups).Err?
    decreases i
  {
    if i > 0 {
      match PurchaseGroup(s, buyer, funds, groups[0])
      case Err(_) =>
      case Ok(s1) =>
        assert groups[1..][i - 1] == groups[i];
        UnknownTierFails(s1, buyer, funds, groups[1..], i - 1);
    }
  }

  /** The storage invariant the reservation engine keeps: every tier is
      stored under its own weight and is well-formed, every tier has a total
      counter, and every reservation counter belongs to a tier and is
      within that tier's per-wallet limit, hence within its total limit. */
  ghost predicate Consistent(s: EventState) {
    && (forall w :: w in s.tiers ==> s.tiers[w].weight == w && Setup.WellFormedTier(s.tiers[w]))
    && s.totalReserved.Keys == s.tiers.Keys
    && (forall w :: w in s.reserved ==> w in s.tiers && s.reserved[w] <= s.tiers[w].maxPerWallet)
  }

  lemma InstantiateIsConsistent(chainId: string, curator: Addr, title: string, description: string,
                                tiers: seq<Tier>, timeline: seq<Stage>)
    requires Setup.Instantiate(chainId, curator, title, description, tiers, timeline).Ok?
    ensures Consistent(Setup.Instantiate(chainId, curator, title, description, tiers, timeline).value)
  {
    var s := Setup.Instantiate(chainId, curator, title, description, tiers, timeline).value;
    forall w | w in s.tiers ensures s.tiers[w].weight == w && Setup.WellFormedTier(s.tiers[w]) {
      var i :| 0 <= i < |tiers| && tiers[i].weight == w;
      assert s.tiers[w] == tiers[i];
    }
  }

  lemma {:induction false} PurchaseKeepsConsistent(s: EventState, buyer: Addr, funds: seq<Coin>, groups: seq<GuestGroup>)
    requires Consistent(s)
    requires Purchase(s, buyer, funds, groups).Ok?
    ensures Consistent(Purchase(s, buyer, funds, groups).value)
    ensures forall w :: w in Purchase(s, buyer, funds, groups).value.reserved
              ==> Purchase(s, buyer, funds, groups).value.reserved[w]
                  <= Purchase(s, buyer, funds, groups).value.tiers[w].totalLimit
    decreases |groups|
  {
    if groups != [] {
      var s1 := PurchaseGroup(s, buyer, funds, groups[0]).value;
      assert Consistent(s1);
      PurchaseKeepsConsistent(s1, buyer, funds, groups[1..]);
    }
  }

  /** A tier of weight 1 priced 1000 "x", at most 5 per wallet and 10 in all. */
  function SampleTier(): Tier {
    Tier("general", 1, 5, 10, [Coin("x", 1000)], SingleSegment(0))
  }

  /** The group of the three-ticket purchase below. */
  function ThreeTicketGroup(): GuestGroup {
    GuestGroup(1, [Registration("a", "x"), Registration("b", "x"), Registration("c", "x")])
  }

  lemma ThreeTicketGroupSettles(s: EventState)
    requires s.totalReserved == map[1 := 0]
    ensures SettledCount(s, SampleTier(), [Coin("x", 3000)], ThreeTicketGroup()) == 3
  {
    var reap := ThreeTicketGroup().reap;
    assert reap[..3] == reap;
    ThreeTicketsExactFunds();
  }

  lemma ThreeTicketGroupDelegates()
    ensures Delegates(ThreeTicketGroup().reap, "buyer") == ["a", "b", "c"]
  {
    var reap := ThreeTicketGroup().reap;
    assert reap[1..] == [Registration("b", "x"), Registration("c", "x")];
    assert reap[1..][1..] == [Registration("c", "x")];
    assert reap[1..][1..][1..] == [];
  }

  lemma ThreeTicketGroupRecorded(homies: map<Addr, seq<Addr>>)
    requires homies == map[]
    ensures RecordDelegates(homies, "buyer", ThreeTicketGroup().reap) == Ok(map["buyer" := ["a", "b", "c"]])
  {
    ThreeTicketGroupDelegates();
    var ds: seq<Addr> := ["a", "b", "c"];
    assert NoDuplicates(ds) by {
      NoDuplicatesCons("a", ds[1..]);
      NoDuplicatesCons("b", ds[2..]);
      NoDuplicatesCons("c", ds[3..]);
    }
    assert ListOf(homies, "buyer") == [];
    assert ListOf(homies, "buyer") + ds == ds;
  }

  lemma ThreeTicketGroupPurchased(s: EventState)
    requires s.tiers == map[1 := SampleTier()] && s.totalReserved == map[1 := 0]
    requires s.reserved == map[] && s.homies == map[]
    ensures PurchaseGroup(s, "buyer", [Coin("x", 3000)], ThreeTicketGroup())
            == Ok(s.(reserved := map[1 := 3], homies := map["buyer" := ["a", "b", "c"]]))
  {
    ThreeTicketGroupSettles(s);
    ThreeTicketGroupRecorded(s.homies);
    assert UpdateReserved(s.reserved, SampleTier(), 3, 3) == Ok(map[1 := 3]);
  }

  /** Three tickets of a fresh tier, paid in full: all three are settled
      and reserved, and the buyer's delegation list records the three
      ticket wallets. */
  lemma ThreeTicketsReserved(s: EventState)
    requires s.tiers == map[1 := SampleTier()] && s.totalReserved == map[1 := 0]
    requires s.reserved == map[] && s.homies == map[]
    ensures Purchase(s, "buyer", [Coin("x", 3000)], [ThreeTicketGroup()])
            == Ok(s.(reserved := map[1 := 3], homies := map["buyer" := ["a", "b", "c"]]))
  {
    ThreeTicketGroupPurchased(s);
    assert [ThreeTicketGroup()][1..] == [];
  }

  /** A tier with 9 of its 10 places counted: of three requested tickets
      only the first is admitted and settled, so the first reservation
      counter of the tier stores 1. */
  lemma OnePlaceLeft(s: EventState)
    requires s.tiers == map[1 := SampleTier()] && s.totalReserved == map[1 := 9]
    requires s.reserved == map[] && s.homies == map[]
    ensures var r := Purchase(s, "buyer", [Coin("x", 3000)],
                              [GuestGroup(1, [Registration("buyer", "x"), Registration("buyer", "x"),
                                              Registration("buyer", "x")])]);
            r.Ok? && r.value.reserved == map[1 := 1] && r.value.totalReserved == map[1 := 9]
  {
    var reap := [Registration("buyer", "x"), Registration("buyer", "x"), Registration("buyer", "x")];
    var g := GuestGroup(1, reap);
    assert AdmitCount(3, 10, 9) == 1;
    assert reap[..1] == [Registration("buyer", "x")];
    assert [Registration("buyer", "x")][1..] == [];
    assert SettledCount(s, SampleTier(), [Coin("x", 3000)], g) == 1;
    assert Delegates(reap, "buyer") == [] by {
      assert reap[1..] == [Registration("buyer", "x"), Registration("buyer", "x")];
      assert reap[1..][1..] == [Registration("buyer", "x")];
      assert reap[1..][1..][1..] == [];
    }
    assert [g][1..] == [];
  }
}

=== FILE: settlement.dfy ===
/** Settlement of one tier group's admitted tickets against the funds sent
    with a purchase: each ticket is paid in its declared denomination when
    the tier prices that denomination and enough of it remains; each paid
    ticket sends a 3% fee to the license address; whatever is left is the
    refund. */
module Settlement {
  import opened Wrappers
  import opened Coins
  import opened EventTypes

  const FEE_NUMERATOR: nat := 3
  const FEE_DENOMINATOR: nat := 100

  /** The flat fee on one ticket: `cost * 3 / 100`, rounded down. */
  function Fee(cost: nat): (f: nat)
    ensures f <= cost
    ensures f * FEE_DENOMINATOR <= cost * FEE_NUMERATOR < (f + 1) * FEE_DENOMINATOR
  {
    cost * FEE_NUMERATOR / FEE_DENOMINATOR
  }

  /** The price of a denomination in a price list: the first entry of that
      denomination, if any. */
  function PriceOf(cost: seq<Coin>, d: Denom): (p: Option<nat>)
    ensures p.Some? <==> exists i :: 0 <= i < |cost| && cost[i].denom == d
    ensures p.Some? ==> Coin(d, p.value) in cost
  {
    var i := FirstIndex(cost, d);
    if i < 0 then None else Some(cost[i].amount)
  }

  /** Running state of the settlement loop. `charged` records the price
      deducted for each counted ticket, in order. */
  datatype Tally = Tally(count: nat, remaining: seq<Coin>, fees: seq<Coin>, charged: seq<Coin>)

  /** A ticket paid in `d` is counted when `d` is priced, some remaining
      coin has denomination `d`, and the first such coin covers the price. */
  predicate Payable(t: Tally, cost: seq<Coin>, d: Denom) {
    var p := PriceOf(cost, d);
    var i := FirstIndex(t.remaining, d);
    p.Some? && i >= 0 && t.remaining[i].amount >= p.value
  }

  /** Settles one ticket. A payable ticket is counted, adds exactly one fee
      coin in its own denomination, and lowers the remaining funds of that
      denomination by its price and no other denomination's; any other
      ticket leaves the tally exactly as it was. */
  function SettleTicket(t: Tally, cost: seq<Coin>, r: Registration): (t': Tally)
    ensures |t'.remaining| == |t.remaining|
    ensures forall j :: 0 <= j < |t.remaining| ==> t'.remaining[j].denom == t.remaining[j].denom
    ensures !Payable(t, cost, r.paymentAsset) ==> t' == t
    ensures Payable(t, cost, r.paymentAsset) ==>
      var price := PriceOf(cost, r.paymentAsset).value;
      && t'.count == t.count + 1
      && t'.fees == t.fees + [Coin(r.paymentAsset, Fee(price))]
      && t'.charged == t.charged + [Coin(r.paymentAsset, price)]
      && forall e :: Total(t'.remaining, e) + (if e == r.paymentAsset then price else 0) == Total(t.remaining, e)
  {
    var d := r.paymentAsset;
    match PriceOf(cost, d)
    case None => t
    case Some(price) =>
      var i := FirstIndex(t.remaining, d);
      if i < 0 then t
      else
        var fund := t.remaining[i];
        if fund.amount >= price then
          var remaining' := t.remaining[i := Coin(fund.denom, fund.amount - price)];
          assert forall e :: Total(remaining', e) + (if e == d then price else 0) == Total(t.remaining, e) by {
            forall e ensures Total(remaining', e) + (if e == d then price else 0) == Total(t.remaining, e) {
              TotalUpdate(t.remaining, i, fund.amount - price, e);
            }
          }
          Tally(t.count + 1, remaining', t.fees + [Coin(fund.denom, Fee(price))], t.charged + [Coin(d, price)])
        else t
  }

  /** Settles the tickets in order. */
  function SettleAll(t: Tally, cost: seq<Coin>, reap: seq<Registration>): Tally
    decreases |reap|
  {
    if reap == [] then t else SettleAll(SettleTicket(t, cost, reap[0]), cost, reap[1..])
  }

  /** The coins of non-zero amount, in order. */
  function DropZero(coins: seq<Coin>): (r: seq<Coin>)
    ensures forall c :: c in r <==> c in coins && c.amount > 0
    ensures forall d :: Total(r, d) == Total(coins, d)
    ensures |r| <= |coins|
  {
    if coins == [] then []
    else
      var rest := DropZero(coins[1..]);
      assert coins == [coins[0]] + coins[1..];
      if coins[0].amount == 0 then rest else [coins[0]] + rest
  }

  /** What a tally keeps true from the start of settlement: funds are
      conserved per denomination between what remains and what was charged,
      each counted ticket has one fee and one charge, every charge is the
      price of its denomination, and each fee is 3% of its charge. */
  ghost predicate Conserves(funds: seq<Coin>, cost: seq<Coin>, t: Tally) {
    && |t.fees| == t.count
    && |t.charged| == t.count
    && (forall d :: Total(funds, d) == Total(t.remaining, d) + Total(t.charged, d))
    && (forall i :: 0 <= i < |t.charged| ==> PriceOf(cost, t.charged[i].denom) == Some(t.charged[i].amount))
    && (forall i :: 0 <= i < |t.fees| ==>
          t.fees[i] == Coin(t.charged[i].denom, Fee(t.charged[i].amount)))
  }

  lemma {:induction false} SettleAllConserves(funds: seq<Coin>, cost: seq<Coin>, t: Tally, reap: seq<Registration>)
    requires Conserves(funds, cost, t)
    ensures Conserves(funds, cost, SettleAll(t, cost, reap))
    ensures t.count <= SettleAll(t, cost, reap).count <= t.count + |reap|
    decreases |reap|
  {
    if reap != [] {
      var d := reap[0].paymentAsset;
      var t1 := SettleTicket(t, cost, reap[0]);
      if Payable(t, cost, d) {
        var price := PriceOf(cost, d).value;
        forall e ensures Total(funds, e) == Total(t1.remaining, e) + Total(t1.charged, e) {
          TotalAppend(t.charged, [Coin(d, price)], e);
          assert Total([Coin(d, price)], e) == (if e == d then price else 0) by {
            assert [Coin(d, price)][1..] == [];
          }
        }
        assert Conserves(funds, cost, t1);
      }
      SettleAllConserves(funds, cost, t1, reap[1..]);
    }
  }

  /** `count_tickets_and_remainder`: settles the tickets against the funds
      sent. Per denomination, the funds sent equal the refund plus the
      prices charged (so nothing is deducted beyond what was sent); the
      refund holds no zero coins; at most one ticket is counted per entry;
      each counted ticket pays its denomination's price and one fee coin of
      3% of it. */
  function CountTicketsAndRemainder(funds: seq<Coin>, cost: seq<Coin>, reap: seq<Registration>): (r: Tally)
    ensures var t := SettleAll(Tally(0, funds, [], []), cost, reap);
            && (r.count, r.fees, r.charged) == (t.count, t.fees, t.charged)
            && r.remaining == DropZero(t.remaining)
    ensures r.count <= |reap|
    ensures |r.fees| == r.count && |r.charged| == r.count
    ensures forall d :: Total(funds, d) == Total(r.remaining, d) + Total(r.charged, d)
    ensures forall i :: 0 <= i < |r.remaining| ==> r.remaining[i].amount > 0
    ensures forall i :: 0 <= i < |r.charged| ==> PriceOf(cost, r.charged[i].denom) == Some(r.charged[i].amount)
    ensures forall i :: 0 <= i < |r.fees| ==> r.fees[i] == Coin(r.charged[i].denom, Fee(r.charged[i].amount))
  {
    var start := Tally(0, funds, [], []);
    SettleAllConserves(funds, cost, start, reap);
    var t := SettleAll(start, cost, reap);
    var refund := DropZero(t.remaining);
    assert forall i :: 0 <= i < |refund| ==> refund[i] in refund;
    Tally(t.count, refund, t.fees, t.charged)
  }

  /** The sum of the prices of the entries paid in `d`. */
  function Need(cost: seq<Coin>, reap: seq<Registration>, d: Denom): nat
    decreases |reap|
  {
    if reap == [] then 0
    else (if reap[0].paymentAsset == d then PriceOf(cost, d).GetOr(0) else 0) + Need(cost, reap[1..], d)
  }

  /** Every entry is paid in a priced denomination that was sent. */
  predicate PricedAndSent(coins: seq<Coin>, cost: seq<Coin>, reap: seq<Registration>) {
    forall i :: 0 <= i < |reap| ==>
      PriceOf(cost, reap[i].paymentAsset).Some? && FirstIndex(coins, reap[i].paymentAsset) >= 0
  }

  lemma {:induction false} FundedSettleAll(t: Tally, cost: seq<Coin>, reap: seq<Registration>)
    requires DistinctDenoms(t.remaining)
    requires PricedAndSent(t.remaining, cost, reap)
    requires forall d :: Need(cost, reap, d) <= Total(t.remaining, d)
    ensures SettleAll(t, cost, reap).count == t.count + |reap|
    decreases |reap|
  {
    if reap != [] {
      var d := reap[0].paymentAsset;
      var price := PriceOf(cost, d).value;
      FirstCoinHoldsTotal(t.remaining, d);
      assert Need(cost, reap, d) == price + Need(cost, reap[1..], d);
      assert Payable(t, cost, d);
      var t1 := SettleTicket(t, cost, reap[0]);
      forall e ensures Need(cost, reap[1..], e) <= Total(t1.remaining, e) {
        assert Need(cost, reap, e) == (if e == d then price else 0) + Need(cost, reap[1..], e);
      }
      forall i | 0 <= i < |reap[1..]| ensures FirstIndex(t1.remaining, reap[1..][i].paymentAsset) >= 0 {
        assert reap[1..][i] == reap[i + 1];
        var k := FirstIndex(t.remaining, reap[i + 1].paymentAsset);
        assert t1.remaining[k].denom == reap[i + 1].paymentAsset;
      }
      assert PricedAndSent(t1.remaining, cost, reap[1..]) by {
        forall i | 0 <= i < |reap[1..]| ensures PriceOf(cost, reap[1..][i].paymentAsset).Some? {
          assert reap[1..][i] == reap[i + 1];
        }
      }
      FundedSettleAll(t1, cost, reap[1..]);
    }
  }

  /** Funds that cover every entry are enough to count every ticket: when
      each entry's denomination is priced and was sent, the funds hold one
      coin per denomination, and each denomination's coin covers the prices
      of all the entries paid in it, every entry is counted. */
  lemma FullyFundedAllCounted(funds: seq<Coin>, cost: seq<Coin>, reap: seq<Registration>)
    requires DistinctDenoms(funds)
    requires PricedAndSent(funds, cost, reap)
    requires forall d :: Need(cost, reap, d) <= Total(funds, d)
    ensures CountTicketsAndRemainder(funds, cost, reap).count == |reap|
  {
    FundedSettleAll(Tally(0, funds, [], []), cost, reap);
  }

  /** Settlement visits tickets in order: settling a concatenation settles
      the first part and continues from its tally. */
  lemma {:induction false} SettleAllConcat(t: Tally, cost: seq<Coin>, a: seq<Registration>, b: seq<Registration>)
    ensures SettleAll(t, cost, a + b) == SettleAll(SettleAll(t, cost, a), cost, b)
    decreases |a|
  {
    if a == [] {
      assert a + b == b;
    } else {
      assert (a + b)[0] == a[0] && (a + b)[1..] == a[1..] + b;
      SettleAllConcat(SettleTicket(t, cost, a[0]), cost, a[1..], b);
    }
  }

  /** Three tickets priced 1000 "x", paid with 3000 "x": all three are
      counted, nothing is refunded, and each sends a fee of 30 "x". */
  lemma ThreeTicketsExactFunds()
    ensures var r := CountTicketsAndRemainder([Coin("x", 3000)], [Coin("x", 1000)],
                                              [Registration("a", "x"), Registration("b", "x"), Registration("c", "x")]);
            r.count == 3 && r.remaining == [] && r.fees == [Coin("x", 30), Coin("x", 30), Coin("x", 30)]
  {
    var cost := [Coin("x", 1000)];
    var t0 := Tally(0, [Coin("x", 3000)], [], []);
    var t1 := SettleTicket(t0, cost, Registration("a", "x"));
    assert t1.remaining == [Coin("x", 2000)];
    var t2 := SettleTicket(t1, cost, Registration("b", "x"));
    assert t2.remaining == [Coin("x", 1000)];
    var t3 := SettleTicket(t2, cost, Registration("c", "x"));
    assert t3.remaining == [Coin("x", 0)];
    var reap := [Registration("a", "x"), Registration("b", "x"), Registration("c", "x")];
    assert SettleAll(t0, cost, reap) == t3 by {
      assert reap[1..] == [Registration("b", "x"), Registration("c", "x")];
      assert reap[1..][1..] == [Registration("c", "x")];
      assert reap[1..][1..][1..] == [];
    }
  }

  /** A ticket whose funds fall short is not counted and nothing is
      deducted: settlement still succeeds. */
  lemma InsufficientFundsNotCounted()
    ensures var r := CountTicketsAndRemainder([Coin("ujuno", 100000)], [Coin("ujuno", 1000000)],
                                              [Registration("guest1", "ujuno")]);
            r.count == 0 && r.remaining == [Coin("ujuno", 100000)] && r.fees == []
  {
    var reap := [Registration("guest1", "ujuno")];
    assert reap[1..] == [];
  }
}

=== FILE: setup.dfy ===
/** Validation performed when an event contract is instantiated: the
    license address of the chain, the title and description, the tier
    definitions and the stage timeline. */
module Setup {
  import opened Wrappers
  import opened Coins
  import opened EventTypes
  import License

  predicate WellFormedTier(t: Tier) {
    && |t.guestType| <= CHARACTER_LIMIT
    && t.maxPerWallet <= t.totalLimit
    && DistinctDenoms(t.cost)
  }

  predicate DistinctWeights(ts: seq<Tier>) {
    forall i, j :: 0 <= i < j < |ts| ==> ts[i].weight != ts[j].weight
  }

  function Weights(ts: seq<Tier>): set<nat> {
    set i | 0 <= i < |ts| :: ts[i].weight
  }

  /** The duplicate-denomination scan over a price list, `seen` holding the
      denominations already visited: it passes exactly when no denomination
      occurs twice and none was seen before. */
  function NoRepeatedDenom(cost: seq<Coin>, seen: seq<Denom>): (ok: bool)
    ensures ok <==> DistinctDenoms(cost) && forall i :: 0 <= i < |cost| ==> cost[i].denom !in seen
    decreases |cost|
  {
    if cost == [] then true
    else if cost[0].denom in seen then false
    else
      var rest := NoRepeatedDenom(cost[1..], seen + [cost[0].denom]);
      assert rest <==> DistinctDenoms(cost[1..]) && forall i :: 1 <= i < |cost| ==> cost[i].denom !in seen + [cost[0].denom];
      rest
  }

  /** The checks applied to one tier, in order, given the weights already
      accepted. */
  function TierFault(accepted: set<nat>, t: Tier): (r: Option<Error>)
    ensures r == None <==> t.weight !in accepted && WellFormedTier(t)
    ensures r == Some(DuplicateGuestWeight) <==> t.weight in accepted
    ensures r == Some(BadGuestDetailParams)
         <==> t.weight !in accepted && (|t.guestType| > CHARACTER_LIMIT || t.maxPerWallet > t.totalLimit)
    ensures r == Some(DuplicateFeeDenom)
         <==> t.weight !in accepted && |t.guestType| <= CHARACTER_LIMIT && t.maxPerWallet <= t.totalLimit
              && !DistinctDenoms(t.cost)
  {
    if t.weight in accepted then Some(DuplicateGuestWeight)
    else if |t.guestType| > CHARACTER_LIMIT || t.maxPerWallet > t.totalLimit then Some(BadGuestDetailParams)
    else if !NoRepeatedDenom(t.cost, []) then Some(DuplicateFeeDenom)
    else None
  }

  /** Stores the tiers one by one under their weights, stopping at the
      first one that fails its checks. The tier table is accepted exactly
      when the weights are distinct (and new) and every tier is
      well-formed, and then holds every tier under its own weight. */
  function RegisterTiers(registered: map<nat, Tier>, ts: seq<Tier>): (r: Result<map<nat, Tier>, Error>)
    ensures r.Ok? <==> DistinctWeights(ts) && Weights(ts) !! registered.Keys
                       && forall i :: 0 <= i < |ts| ==> WellFormedTier(ts[i])
    ensures r.Ok? ==> r.value.Keys == registered.Keys + Weights(ts)
    ensures r.Ok? ==> forall i :: 0 <= i < |ts| ==> r.value[ts[i].weight] == ts[i]
    ensures r.Ok? ==> forall w :: w in registered ==> r.value[w] == registered[w]
    ensures r.Err? ==> r.error in {DuplicateGuestWeight, BadGuestDetailParams, DuplicateFeeDenom}
    decreases |ts|
  {
    if ts == [] then Ok(registered)
    else
      match TierFault(registered.Keys, ts[0])
      case Some(e) => Err(e)
      case None =>
        var rest := RegisterTiers(registered[ts[0].weight := ts[0]], ts[1..]);
        WeightsCons(ts);
        DistinctWeightsCons(ts);
        rest
  }

  /** A rejected tier table is rejected at its first faulty tier `i`: the
      tiers before it are accepted, and the error is the one the checks of
      tier `i` give against the weights accepted so far. So a duplicate
      weight is reported on the first tier whose weight was already
      accepted. */
  lemma {:induction false} FirstFaultyTier(registered: map<nat, Tier>, ts: seq<Tier>) returns (i: nat)
    requires RegisterTiers(registered, ts).Err?
    ensures i < |ts|
    ensures RegisterTiers(registered, ts[..i]).Ok?
    ensures TierFault(registered.Keys + Weights(ts[..i]), ts[i]) == Some(RegisterTiers(registered, ts).error)
    decreases |ts|
  {
    match TierFault(registered.Keys, ts[0])
    case Some(e) =>
      i := 0;
      assert Weights(ts[..0]) == {};
    case None =>
      var rest := registered[ts[0].weight := ts[0]];
      var k := FirstFaultyTier(rest, ts[1..]);
      i := k + 1;
      var pre := ts[..i];
      assert pre[0] == ts[0] && pre[1..] == ts[1..][..k];
      assert RegisterTiers(registered, pre) == RegisterTiers(rest, ts[1..][..k]);
      assert RegisterTiers(registered, ts) == RegisterTiers(rest, ts[1..]);
      assert ts[i] == ts[1..][k];
      WeightsCons(pre);
      assert registered.Keys + Weights(pre) == rest.Keys + Weights(ts[1..][..k]);
  }

  lemma DistinctWeightsCons(ts: seq<Tier>)
    requires |ts| > 0
    ensures DistinctWeights(ts) <==> DistinctWeights(ts[1..]) && ts[0].weight !in Weights(ts[1..])
  {
    assert forall j :: 1 <= j < |ts| ==> ts[j] == ts[1..][j - 1];
  }

  lemma WeightsCons(ts: seq<Tier>)
    requires |ts| > 0
    ensures Weights(ts) == {ts[0].weight} + Weights(ts[1..])
  {
    assert forall j :: 1 <= j < |ts| ==> ts[j] == ts[1..][j - 1];
  }

  predicate WellFormedStage(st: Stage) {
    st.start <= st.end && |st.description| <= CHARACTER_LIMIT
  }

  /** Every stage ends no later than the next one starts. */
  predicate NonOverlapping(timeline: seq<Stage>) {
    forall i :: 0 < i < |timeline| ==> timeline[i - 1].end <= timeline[i].start
  }

  /** The checks applied to the stage at position `i`, in order. */
  function StageFault(timeline: seq<Stage>, i: nat): (r: Option<Error>)
    requires i < |timeline|
    ensures r == None <==> WellFormedStage(timeline[i]) && (i > 0 ==> timeline[i - 1].end <= timeline[i].start)
    ensures r == Some(InvalidEventDates) <==> timeline[i].start > timeline[i].end
    ensures r == Some(BadEventDescriptionLength)
         <==> timeline[i].start <= timeline[i].end && |timeline[i].description| > CHARACTER_LIMIT
    ensures r == Some(OverlappingEventDates)
         <==> WellFormedStage(timeline[i]) && i > 0 && timeline[i - 1].end > timeline[i].start
    ensures r.Some? ==> r.value in {InvalidEventDates, BadEventDescriptionLength, OverlappingEventDates}
  {
    var st := timeline[i];
    if st.start > st.end then Some(InvalidEventDates)
    else if |st.description| > CHARACTER_LIMIT then Some(BadEventDescriptionLength)
    else if i > 0 && timeline[i - 1].end > st.start then Some(OverlappingEventDates)
    else None
  }

  /** The first fault among stages `i..`, visiting them in order. */
  function FirstStageFault(timeline: seq<Stage>, i: nat): (r: Option<Error>)
    requires i <= |timeline|
    ensures r == None <==> (forall j :: i <= j < |timeline| ==> WellFormedStage(timeline[j]))
                           && (forall j :: i <= j < |timeline| && j > 0 ==> timeline[j - 1].end <= timeline[j].start)
    ensures r == Some(InvalidEventDates) ==> exists j :: i <= j < |timeline| && timeline[j].start > timeline[j].end
    ensures r == Some(BadEventDescriptionLength)
            ==> exists j :: i <= j < |timeline| && |timeline[j].description| > CHARACTER_LIMIT
    ensures r == Some(OverlappingEventDates)
            ==> exists j :: i <= j < |timeline| && j > 0 && timeline[j - 1].end > timeline[j].start
    ensures r.Some? ==> r.value in {InvalidEventDates, BadEventDescriptionLength, OverlappingEventDates}
    decreases |timeline| - i
  {
    if i == |timeline| then None
    else
      match StageFault(timeline, i)
      case Some(e) => Some(e)
      case None => FirstStageFault(timeline, i + 1)
  }

  /** A rejected timeline is rejected at its first faulty stage `k`: the
      stages before it pass their checks, and the error is the one the
      checks of stage `k` give. */
  lemma {:induction false} FirstFaultyStage(timeline: seq<Stage>, i: nat) returns (k: nat)
    requires i <= |timeline|
    requires FirstStageFault(timeline, i).Some?
    ensures i <= k < |timeline|
    ensures forall j :: i <= j < k ==> StageFault(timeline, j) == None
    ensures StageFault(timeline, k) == FirstStageFault(timeline, i)
    decreases |timeline| - i
  {
    if StageFault(timeline, i).Some? {
      k := i;
    } else {
      k := FirstFaultyStage(timeline, i + 1);
    }
  }

  /** The whole timeline: accepted exactly when every stage is well-formed
      and no stage overlaps its predecessor; stored under 0-based positions. */
  function RegisterStages(timeline: seq<Stage>): (r: Result<map<nat, Stage>, Error>)
    ensures r.Ok? <==> (forall j :: 0 <= j < |timeline| ==> WellFormedStage(timeline[j])) && NonOverlapping(timeline)
    ensures r.Ok? ==> r.value == map j | 0 <= j < |timeline| :: timeline[j]
    ensures r == Err(OverlappingEventDates) ==> !NonOverlapping(timeline)
    ensures r == Err(InvalidEventDates) ==> exists j :: 0 <= j < |timeline| && timeline[j].start > timeline[j].end
  {
    match FirstStageFault(timeline, 0)
    case Some(e) => Err(e)
    case None => Ok(map j | 0 <= j < |timeline| :: timeline[j])
  }

  /** An accepted timeline is ordered as a whole: every stage ends no
      later than any later stage starts. */
  lemma {:induction false} TimelineOrdered(timeline: seq<Stage>, i: nat, j: nat)
    requires RegisterStages(timeline).Ok?
    requires i < j < |timeline|
    ensures timeline[i].end <= timeline[j].start
    decreases j - i
  {
    if i + 1 < j {
      TimelineOrdered(timeline, i, j - 1);
      assert WellFormedStage(timeline[j - 1]);
    }
  }

  /** Instantiation: the license address of the chain, then the title and
      description, then the tiers, then the timeline. A new event has every
      tier's total counter at zero and no reservations, attendance records or
      delegation lists. */
  function Instantiate(chainId: string, curator: Addr, title: string, description: string,
                       tiers: seq<Tier>, timeline: seq<Stage>): (r: Result<EventState, Error>)
    ensures License.LicenseAddr(chainId).Err? ==> r == Err(NoLicenseAddress)
    ensures License.LicenseAddr(chainId).Ok? && (|title| > CHARACTER_LIMIT || |description| > CHARACTER_LIMIT)
            ==> r == Err(BadEventTitleOrDescription)
    ensures (License.LicenseAddr(chainId).Ok? && |title| <= CHARACTER_LIMIT && |description| <= CHARACTER_LIMIT
             && RegisterTiers(map[], tiers).Err?)
            ==> r == Err(RegisterTiers(map[], tiers).error)
    ensures (License.LicenseAddr(chainId).Ok? && |title| <= CHARACTER_LIMIT && |description| <= CHARACTER_LIMIT
             && RegisterTiers(map[], tiers).Ok? && RegisterStages(timeline).Err?)
            ==> r == Err(RegisterStages(timeline).error)
    ensures r.Ok? <==> && License.LicenseAddr(chainId).Ok?
                       && |title| <= CHARACTER_LIMIT && |description| <= CHARACTER_LIMIT
                       && DistinctWeights(tiers) && (forall i :: 0 <= i < |tiers| ==> WellFormedTier(tiers[i]))
                       && (forall j :: 0 <= j < |timeline| ==> WellFormedStage(timeline[j]))
                       && NonOverlapping(timeline)
    ensures r.Ok? ==> && r.value.config == Config(title, description, curator)
                      && r.value.licenseAddr == License.LicenseAddr(chainId).value
                      && r.value.tiers.Keys == Weights(tiers)
                      && (forall i :: 0 <= i < |tiers| ==> r.value.tiers[tiers[i].weight] == tiers[i])
                      && r.value.totalReserved == (map w | w in Weights(tiers) :: 0)
                      && r.value.stages == (map j | 0 <= j < |timeline| :: timeline[j])
                      && r.value.reserved == map[]
                      && r.value.attendance == map[]
                      && r.value.homies == map[]
  {
    match License.LicenseAddr(chainId)
    case Err(_) => Err(NoLicenseAddress)
    case Ok(license) =>
      if |title| > CHARACTER_LIMIT || |description| > CHARACTER_LIMIT then Err(BadEventTitleOrDescription)
      else
        var registered :- RegisterTiers(map[], tiers);
        var stages :- RegisterStages(timeline);
        Ok(EventState(
          Config(title, description, curator),
          license,
          registered,
          map w | w in registered :: 0,
          map[],
          stages,
          map[],
          map[]))
  }

  /** A later tier reusing an earlier tier's weight is rejected as a
      duplicate when everything before it was accepted. */
  lemma DuplicateWeightRejected(a: Tier, b: Tier)
    requires WellFormedTier(a)
    requires a.weight == b.weight
    ensures RegisterTiers(map[], [a, b]) == Err(DuplicateGuestWeight)
  {
    assert [a, b][1..] == [b];
    assert [b][1..] == [];
  }

  /** The second stage starts before the first ends: the timeline is
      rejected as overlapping. */
  lemma OverlappingSecondStageRejected()
    ensures RegisterStages([Stage("First Event", 1000, 2000), Stage("Overlapping Event", 1500, 2500)])
            == Err(OverlappingEventDates)
  {
    var t := [Stage("First Event", 1000, 2000), Stage("Overlapping Event", 1500, 2500)];
    assert StageFault(t, 0) == None;
    assert StageFault(t, 1) == Some(OverlappingEventDates);
  }
}

=== FILE: wrappers.dfy ===
/** Option and Result types used for storage lookups and for the error
    returns of every entry point. A contract entry point that returns
    `Err` has all of its storage writes discarded by the runtime, so a
    `Result<State, Error>` is exactly the observable outcome of a call. */
module Wrappers {

  datatype Option<+T> = None | Some(value: T) {
    function GetOr(default: T): T {
      match this
      case Some(v) => v
      case None => default
    }
  }

  datatype Result<+T, +E> = Ok(value: T) | Err(error: E) {
    predicate IsFailure() {
      Err?
    }

    function PropagateFailure<U>(): Result<U, E>
      requires Err?
    {
      Err(error)
    }

    function Extract(): T
      requires Ok?
    {
      value
    }
  }
}
